=== FILE: README.md ===
# Student registration, song ratings and audit log — a Dafny model

This project models the Express server of a small registration app (`server.js`) and three
helpers of its browser code (`public/js/utils.js`):

- the user and student handlers: list, fetch by id, create, update and delete;
- the audit recorder `logAudit` and `GET /api/audit`;
- the song-rating endpoints `GET /api/ratings/:title/:artist` and `POST /api/ratings`;
- `isValidEmail`, the relative-time part of `formatTimestamp`, and `getFormData`.

Each handler is a side-effect-free function or method of a database value (`Store.Db`) and a request. A handler
that writes returns the response together with the next database value (`Http.Outcome`);
the read-only ones (list, fetch by id, the audit listing and the ratings GET) return the
response alone (`Http.Response`). The PostgreSQL tables become
immutable values:

- `users` and `students` are maps from id to row;
- `song_ratings` is a sequence of rows;
- `audit_log` is an append-only sequence.

The schema is not part of this model. What the handlers rely on is stated as the
invariant `Store.Valid`:

- ids come from a sequence, so every id is below the next one;
- emails are UNIQUE per table, which is where the source's 23505 → 409 mapping comes from;
- there is at most one rating row per voter and song. This one does not come from the schema: the rating handler keeps it by looking the row up and then either inserting or updating, for requests taken one at a time (interleaved requests are left out, below);
- timestamps come from one clock that only moves forward.

Every handler that writes requires `Valid` and proves that it keeps it; the read-only
handlers need no precondition. The outside world enters as
parameters in `Http.Env`:

- the client address (`req.ip`);
- whether the database answers (`storeUp`); a failing query gives the handler's 500 reply;
- whether the audit INSERT succeeds (`auditUp`).

Timestamps are the store's own counter. The browser helpers take the millisecond
difference `now - date` and the locale-formatted date as inputs.

`parseInt` is modelled following section 19.2.5 of ECMA-262:

- leading white space is skipped;
- an optional sign is read;
- a `0x`/`0X` prefix selects radix 16;
- the longest digit run is read, and anything after it is ignored;
- no digits at all gives NaN.

So the id routes accept `"12abc"` as 12, `"-3"` and `"0x1F"`, and reject only text
without a leading digit run. The routes are meant for positive integer ids, but the
model follows what the code accepts.

## Model

| member | source | states |
|---|---|---|
| JsNumber.ParseInt | server.js:114 | `parseInt` of a route id is NaN (None) when nothing but white space is left after trimming, and when the first character after the white space is neither a sign nor a digit |
| JsNumber.ToDecimalValue | server.js:114 | the decimal text of a number (how a client writes an id into a URL) denotes that number |
| JsNumber.ParseIntOfDecimal | server.js:237 | the decimal text of any id the server returned, followed by text that does not continue the number, parses back to that id |
| JsNumber.ParseIntOfNegative | server.js:177 | a minus sign before the digits of a positive number gives the negated value, so such an id is a number and passes the NaN check |
| EntityLifecycle.NegativeIdNotFound | server.js:236-255 | with the database up, fetching a negative id gives 404 with the not-found message: it passes the NaN check but no row has an id below 1 |
| JsNumber.ParseIntSkipsWhitespace | server.js:291 | leading white space does not change what an id parses to |
| JsNumber.ParseIntRouteExamples | __tests__/users.test.js:98-116 | "invalid" is NaN, the 400 path of the test, and "999999" is the number 999999, the 404 path; the empty string is NaN too, as section 19.2.5 of ECMA-262 defines it (no test sends it) |
| Store.InsertKeepsValid | server.js:82-86 | an INSERT with the next id, the current time and an unused email keeps the schema invariant |
| Store.ReplaceKeepsValid | server.js:142-145 | an UPDATE that keeps the row's creation time and takes no other row's email keeps the invariant |
| Store.RemoveKeepsValid | server.js:187-190 | a DELETE keeps the invariant |
| Audit.Record | server.js:59-69 | the audit INSERT appends exactly one entry with the given action, entity, name, email, changes and client address; a failure leaves the database as it was; the entity and rating tables are never touched |
| Audit.ListAudit | server.js:218-233 | 500 "Failed to fetch audit logs" when the database fails; otherwise `count` equals the number of logs, at most 1000, equal to min(log size, 1000), and entry i is the i-th newest |
| Audit.ListAuditNewestFirst | server.js:220 | in a valid database the listing is strictly decreasing in creation time |
| Audit.RecordedEntryListedFirst | server.js:59-65 | an entry that was recorded is the first one the next audit listing returns |
| Audit.FailedRecordInvisible | server.js:66-68 | a failed audit insert changes nothing the audit listing shows |
| Entities.StoredFields | server.js:335-338 | the stored columns are the request's; a student's major is NULL exactly when the request's major is absent or empty (`major \|\| null`) |
| Entities.Get | server.js:236-267 | (students: 290-321) 400 for a NaN id, 500 on database failure, 404 exactly when the id has no row, and then the reply is the not-found message naming the entity kind; 200 exactly when it has one, and then the payload is that row |
| Entities.Create | server.js:72-110 | (students: 324-362) 400 without the required fields and 500 on database failure, both changing nothing; 409 "Email already exists" exactly when the email is taken, changing nothing; otherwise 201, one new row under a fresh id ≥ 1, other table and ratings unchanged, and one CREATE audit entry exactly when the audit insert succeeds, recording the new id, the submitted name and email, a snapshot of the submitted fields and the client IP |
| Entities.Update | server.js:113-173 | (students: 365-425) checks in the order NaN id, required fields, database failure, missing row (404, with the not-found message naming the entity kind), email taken by another row (409, with the duplicate-email message), each changing nothing; on 200 only that row changes, to the submitted fields with its creation time kept, plus one UPDATE entry with before and after, recording the submitted (not the previously stored) name and email and the client IP |
| Entities.Delete | server.js:176-215 | (students: 428-467) 400, 500, 404 exactly when absent (the not-found message naming the entity kind, database unchanged), 200 exactly when present; on 200 the table loses exactly that id, the payload is the removed row, plus one DELETE entry with its snapshot, recording the removed row's name and email and the client IP |
| Entities.InsertNewestFirst | server.js:43 | placing a row into a newest-first list keeps it newest first and adds exactly that row |
| Entities.SortedRows | server.js:43 | the rows of the table, each exactly once (a permutation), ordered by creation time descending |
| Entities.List | server.js:41-56 | (students: 272-287) 500 on database failure; otherwise 200 with every row once, newest first, and `count` equal to the number returned |
| Entities.ListingMatchesTable | server.js:43-48 | every listed pair is a table row under its own id, and every id of the table is listed |
| EntityLifecycle.CreatedIsFetchable | server.js:91-95 | the id a create returns, written in a URL, fetches exactly the created row |
| EntityLifecycle.DeletedIsGone | server.js:186-197 | after a successful delete the same id gives 404 "not found" |
| EntityLifecycle.SameEmailCreatedOnce | server.js:96-101 | once a create has succeeded, another create with the same email gets 409 and changes nothing |
| EntityLifecycle.CreateThenDeleteRestoresTables | server.js:176-215 | deleting what was just created succeeds and restores both entity tables and the ratings |
| EntityLifecycle.CreatedIsDeletable | server.js:177-195 | the id a create returns parses back to itself and deleting it succeeds |
| EntityLifecycle.UpdatedIsFetched | server.js:141-158 | after an update the next fetch shows the submitted fields and the original creation time |
| EntityLifecycle.UpdateIdempotentOnTable | server.js:141-150 | repeating an update succeeds and leaves the table as the first one left it |
| EntityLifecycle.CreateIgnoresAuditFailure | server.js:66-68 | whether the audit insert fails never changes a create's reply or any entity or rating table |
| EntityLifecycle.UpdateIgnoresAuditFailure | server.js:66-68 | the same for update |
| EntityLifecycle.DeleteIgnoresAuditFailure | server.js:66-68 | the same for delete |
| Ratings.ParseRating | server.js:529-534 | exactly the strings "up" and "down" are ratings |
| Ratings.VoteOf | server.js:498-507 | the caller's rating is null exactly when no row has this song and address; otherwise it is the rating of the first such row |
| Ratings.Revote | server.js:545-549 | on a table holding at most one row per voter and song in which this voter has already rated this song, afterwards the voter's rating of the song is the new one and the table still holds at most one row per voter and song; every other voter's rating of every song, and this voter's rating of every other song, is unchanged; the number of rows is unchanged |
| Ratings.RewriteSetsVote | server.js:545-549 | any rewrite of exactly this voter's rows to the new rating keeps at most one row per voter and song and makes the new rating the voter's rating of the song |
| Ratings.RewriteKeepsOthers | server.js:545-549 | any rewrite of exactly this voter's rows leaves the rating of every other (voter, song) pair as it was |
| Ratings.GetRatings | server.js:472-515 | 500 "Failed to fetch ratings" on database failure; otherwise up and down are the numbers of rows of the song with that rating (0 when there are none) and userRating is the caller's |
| Ratings.AddVote | server.js:561-566 | a first vote appends exactly one row, after which the voter's rating is the new one and the invariant holds |
| Ratings.ChangeVote | server.js:545-549 | a changed vote rewrites only the voter's row, after which the voter's rating is the new one and the invariant holds |
| Ratings.SubmitRating | server.js:518-580 | 400 for a missing field, then 400 for a rating other than up/down, then 500 on database failure, all changing nothing; no earlier vote gives 201 and one appended row; a different earlier vote gives 200 and changes only that voter's row; the same earlier vote gives 400 "You have already rated this song" and changes nothing; on success the caller's rating is the submitted one |
| RatingLifecycle.CountAfterChange | server.js:477-495 | replacing one rating row moves each count by what the old row took away and the new one adds |
| RatingLifecycle.SubmitMovesOneVote | server.js:536-571 | a first vote adds one to its own count; a changed vote moves one from the old count to the new; no other song's counts move |
| RatingLifecycle.ChangeMovesOneVote | server.js:545-549 | rewriting a voter's one row takes one vote from the old rating's count of that song and adds one to the new rating's; every other count stays |
| RatingLifecycle.SubmitKeepsOtherVoters | server.js:543-566 | a submit leaves every other voter's rating unchanged, for this song and all others |
| RatingLifecycle.RepeatVoteRefused | server.js:555-559 | the same vote twice: the second is refused with 400 and changes nothing |
| RatingLifecycle.AlternatingVotesUpdate | server.js:545-554 | after a vote, the opposite vote is an update (200), and switching back is an update again |
| RatingLifecycle.UnratedSongIsZero | server.js:488-491 | a song without rows has 0 up, 0 down and no rating from anyone |
| Email.IsValidEmail | public/js/utils.js:124-127 | true exactly when the anchored pattern `[^\s@]+@[^\s@]+\.[^\s@]+` matches the whole string for some choice of the `@` and the `.` |
| Email.PatternAtFirstAt | public/js/utils.js:125 | the pattern matches exactly when the first `@` splits the string into a non-empty local part and a domain that both hold only pattern characters, with an inner dot in the domain |
| Email.ValidEmailShape | public/js/utils.js:125 | valid exactly when there is an `@` with a non-empty part before it, no other `@` and no white space anywhere, and a `.` in the domain with a character on each side |
| Email.ValidEmailHasOneAt | public/js/utils.js:125 | a valid address has exactly one `@` |
| Email.WithoutAtRejected | public/js/utils.js:125 | a string with no `@` at all is rejected |
| Email.AcceptsPlain | __tests__/frontend/utils.test.js:249 | "test@example.com" is valid |
| Email.AcceptsDottedLocalPart | __tests__/frontend/utils.test.js:250 | "user.name@example.com" is valid |
| Email.AcceptsPlusTag | __tests__/frontend/utils.test.js:251 | "user+tag@example.co.uk" is valid |
| Email.AcceptsHyphenatedDomain | __tests__/frontend/utils.test.js:252 | "user123@test-domain.com" is valid |
| Email.AcceptsShortest | __tests__/frontend/utils.test.js:253 | "a@b.c" is valid |
| Email.RejectsNoAt | __tests__/frontend/utils.test.js:263 | "invalid" is not |
| Email.RejectsEmptyLocalPart | __tests__/frontend/utils.test.js:264 | "@example.com" is not |
| Email.RejectsEmptyDomain | __tests__/frontend/utils.test.js:265 | "user@" is not |
| Email.RejectsSpace | __tests__/frontend/utils.test.js:266 | "user @example.com" is not |
| Email.RejectsDomainWithoutDot | __tests__/frontend/utils.test.js:267 | "user@example" is not |
| Email.RejectsEmpty | __tests__/frontend/utils.test.js:268 | "" is not |
| Email.RejectsDoubleAt | __tests__/frontend/utils.test.js:269 | "user@@example.com" is not |
| Email.RejectsDotRightAfterAt | __tests__/frontend/utils.test.js:270 | "user@.com" is not |
| Email.RejectsNull | __tests__/frontend/utils.test.js:279 | null, which the pattern test reads as the string "null", is not |
| Email.RejectsUndefined | __tests__/frontend/utils.test.js:280 | undefined, read as the string "undefined", is not |
| Email.RejectsBlank | __tests__/frontend/utils.test.js:281 | " " is not |
| RelativeTime.Bucket | public/js/utils.js:61-75 | "Just now" below one minute (the future included), minutes below an hour, hours below a day, days below a week, nothing from a week on or for an unparseable date; the count n is the whole number of units: n·unit ≤ diff < (n+1)·unit |
| RelativeTime.TimeAgoText | public/js/utils.js:66-75 | the relative text is empty exactly when no bucket applies, and is exactly "Just now" for the under-a-minute bucket |
| RelativeTime.CountedText | public/js/utils.js:69-74 | for a minutes, hours or days bucket the text is written as that many units: it reads back as the count, starts with the count's digits followed by a space and the unit word, carries the plural "s" exactly when the count is above one, ends in " ago", and has nothing else in it (its length is exactly the sum of those parts) |
| RelativeTime.CountReads | public/js/utils.js:70 | the same for any count of at least one and any unit word not ending in "s" |
| RelativeTime.SpelledExactly | public/js/utils.js:70-74 | a text written as n units in the above sense is exactly the count, a space, the unit word, "s" when n is above one, and " ago" |
| RelativeTime.SpelledUniquely | public/js/utils.js:70-74 | two texts written as the same count of the same unit are the same text |
| RelativeTime.FormatTimestamp | public/js/utils.js:86 | the output starts with the formatted date; it is only that date exactly when there is no relative text; otherwise the styled `<br><small>` line with the text follows the date, and the output is exactly as long as the date, the opening tag, the text and the closing tag together, so nothing follows the closing tag |
| RelativeTime.BucketMonotone | public/js/utils.js:67-75 | an older timestamp never shows a more recent relative text |
| RelativeTime.FutureIsJustNow | public/js/utils.js:67-68 | a negative difference shows "Just now" |
| RelativeTime.OldTimestampPlain | public/js/utils.js:86 | a week or older, or an unparseable date, gives exactly the formatted date |
| RelativeTime.MinutesAgoExample | __tests__/frontend/utils.test.js:178-182 | five minutes ago reads "5 mins ago" |
| RelativeTime.HoursAgoExample | __tests__/frontend/utils.test.js:184-188 | two hours ago reads "2 hours ago" |
| RelativeTime.DaysAgoExample | __tests__/frontend/utils.test.js:190-194 | three days ago reads "3 days ago" |
| RelativeTime.OneMinuteAgoExample | public/js/utils.js:70 | one whole minute has no plural: "1 min ago" |
| RelativeTime.JustNowExample | __tests__/frontend/utils.test.js:172-176 | 59 seconds ago reads "Just now" |
| RelativeTime.RecentShowsAgo | __tests__/frontend/utils.test.js:196-201 | from one minute to a week, the output contains `<br>` and " ago" |
| FormData.GetFormData | public/js/utils.js:110-117 | the object has exactly the form's keys other than `__proto__`, each with the value of its last entry |
| FormData.LaterEntryWins | public/js/utils.js:113-115 | appending an entry for a key sets that key and leaves every other key as it was |
| FormData.EmptyFormGivesEmptyObject | __tests__/frontend/utils.test.js:230-243 | no entries give an empty object |
| FormData.TwoFieldExample | __tests__/frontend/utils.test.js:205-228 | the test's two entries give the object with those two properties |

## Left out

- db.js: connection-pool configuration, environment lookup and process exit. There is no behaviour in it to state.
- The schema (table definitions, the UNIQUE email constraint, SERIAL ids) is not part of this model. Its effect is the `Store.Valid` invariant, which every writing handler requires.
- Express plumbing is not modelled: routing, JSON body parsing, CORS, static files, the listen call, and `GET /api/health` and `GET /api/test-db`. They carry no state.
- Request bodies whose values are not strings are not modelled: numbers, arrays and objects. Every field is an optional string.
- The `error: error.message` text of 500 replies is not modelled, because it comes from the database driver.
- Timestamps are abstract counters. `NOW()`, `CURRENT_TIMESTAMP` and their wall-clock values are not modelled.
- Locale date formatting (`toLocaleString`) is an opaque string input, and `new Date(...)` parsing is reduced to "a difference or NaN".
- `decodeURIComponent` on the rating route: title and artist arrive already decoded, and a malformed escape, which would throw and give 500, is not modelled.
- Concurrency is not modelled: two requests that interleave between the rating lookup and its INSERT or UPDATE, or between the email check and a write. Requests are handled one after another.
- JavaScript numbers are unbounded integers here. `parseInt` values beyond 2^53, `Infinity`, and ids the database would reject as out of its integer range are not modelled.
- Entities.Create: a failed INSERT (409 or 500) does not advance the id sequence here. In PostgreSQL it would, but the model only promises that ids are fresh.
- Audit.Record: the audit entry's `changes` is kept as a structured value. The `JSON.stringify` text is not modelled, so the difference between `undefined` (a property that is dropped) and `null` for an absent major is not kept.
- Ratings.VoteOf: the order of rows the lookup query returns is taken to be table order. With at most one row per voter and song this has no effect.
- FormData.GetFormData: property order of the resulting object (order of first insertion) is not modelled, and a map has none. File-valued entries are not modelled either.
- Strings are sequences of Unicode scalar values, not UTF-16 code units. The email pattern and the white-space set give the same answers on both.
- `showMessage`, `handleApiResponse`, `escapeHtml` and the DOM code of the browser helpers are not part of this model.

=== FILE: audit.dfy ===
/** The audit recorder `logAudit` and the `GET /api/audit` reader of server.js. */
module Audit {
  import opened Options
  import opened Store
  import opened Http

  /** `LIMIT 1000` of the audit query. */
  const MaxLogs: nat := 1000

  /** `logAudit`: one INSERT into `audit_log`, stamped with the clock and the client
      address. A failing insert is caught and only printed, so the database is left as
      it was and the caller carries on as if it had succeeded. */
  function Record(db: Db, env: Env, action: Action, kind: Kind, entityId: int,
                  userName: string, userEmail: string, changes: Changes): (r: Db)
    ensures r.users == db.users && r.students == db.students && r.votes == db.votes
    ensures r.nextUserId == db.nextUserId && r.nextStudentId == db.nextStudentId
    ensures !env.auditUp ==> r == db
    ensures env.auditUp ==> |r.audit| == |db.audit| + 1 && r.audit[..|db.audit|] == db.audit
    ensures env.auditUp ==> var e := r.audit[|db.audit|];
              e.action == action && e.kind == kind && e.entityId == entityId
              && e.userName == userName && e.userEmail == userEmail
              && e.changes == changes && e.ip == env.ip
    ensures Valid(db) ==> Valid(r)
  {
    if env.auditUp then
      var e := AuditEntry(db.nextAuditId, action, kind, entityId, userName, userEmail, changes, env.ip, db.clock);
      var r := db.(audit := db.audit + [e], nextAuditId := db.nextAuditId + 1, clock := db.clock + 1);
      assert r.audit[..|db.audit|] == db.audit;
      r
    else db
  }

  /** The elements of `s` in the opposite order. */
  function Reverse<T>(s: seq<T>): (r: seq<T>)
    ensures |r| == |s|
    ensures forall i | 0 <= i < |s| :: r[i] == s[|s| - 1 - i]
  {
    if |s| == 0 then [] else [s[|s| - 1]] + Reverse(s[..|s| - 1])
  }

  /** The `limit` most recent entries of the log, newest first. */
  function Newest(audit: seq<AuditEntry>, limit: nat): seq<AuditEntry> {
    var k := if |audit| < limit then |audit| else limit;
    Reverse(audit[|audit| - k..])
  }

  /** `GET /api/audit`: `ORDER BY created_at DESC LIMIT 1000`, with `count` the length of
      the returned array. Entries are stamped in append order, so newest-first is the
      log read backwards. */
  function ListAudit(db: Db, env: Env): (resp: Response)
    ensures !env.storeUp ==> resp == Fail(500, "Failed to fetch audit logs")
    ensures env.storeUp ==> resp.code == 200 && resp.status == Success && resp.payload.Logs?
    ensures env.storeUp ==>
              var logs := resp.payload.logs;
              && resp.payload.count == |logs| <= MaxLogs
              && |logs| == (if |db.audit| < MaxLogs then |db.audit| else MaxLogs)
              && forall i | 0 <= i < |logs| :: logs[i] == db.audit[|db.audit| - 1 - i]
  {
    if !env.storeUp then Fail(500, "Failed to fetch audit logs")
    else
      var logs := Newest(db.audit, MaxLogs);
      Response(200, Success, None, Logs(|logs|, logs))
  }

  /** In a valid database the audit listing is strictly newest first by timestamp. */
  lemma {:induction false} ListAuditNewestFirst(db: Db, env: Env)
    requires Valid(db) && env.storeUp
    ensures var logs := ListAudit(db, env).payload.logs;
            forall i, j | 0 <= i < j < |logs| :: logs[i].at > logs[j].at
  {
    var logs := ListAudit(db, env).payload.logs;
    forall i, j | 0 <= i < j < |logs|
      ensures logs[i].at > logs[j].at
    {
      assert logs[i] == db.audit[|db.audit| - 1 - i];
      assert logs[j] == db.audit[|db.audit| - 1 - j];
    }
  }

  /** An audit entry that was recorded is the first one the next `GET /api/audit` shows. */
  lemma {:induction false} RecordedEntryListedFirst(db: Db, env: Env, action: Action, kind: Kind, entityId: int,
                                 userName: string, userEmail: string, changes: Changes)
    requires env.auditUp && env.storeUp
    ensures var r := Record(db, env, action, kind, entityId, userName, userEmail, changes);
            var logs := ListAudit(r, env).payload.logs;
            |logs| > 0 && logs[0] == r.audit[|r.audit| - 1]
            && logs[0].action == action && logs[0].entityId == entityId && logs[0].changes == changes
  {
  }

  /** A failing audit insert changes nothing that any later request can see. */
  lemma {:induction false} FailedRecordInvisible(db: Db, env: Env, action: Action, kind: Kind, entityId: int,
                              userName: string, userEmail: string, changes: Changes)
    requires !env.auditUp
    ensures ListAudit(Record(db, env, action, kind, entityId, userName, userEmail, changes), env)
            == ListAudit(db, env)
  {
  }
}

=== FILE: email.dfy ===
/** `isValidEmail` of the browser utilities: a test of the whole string against
    `^[^\s@]+@[^\s@]+\.[^\s@]+$`. */
module Email {
  import opened JsText

  /** A character of the class `[^\s@]`. */
  predicate Plain(c: char) {
    !IsWhitespace(c) && c != '@'
  }

  predicate AllPlain(s: string) {
    forall i | 0 <= i < |s| :: Plain(s[i])
  }

  /** One match of `[^\s@]+`. */
  predicate PlainRun(s: string) {
    |s| > 0 && AllPlain(s)
  }

  /** The pattern matches `s` with the `@` at index `at` and the literal `\.` at index
      `dot`: three runs of the class separated by those two characters. */
  ghost predicate SplitsAt(s: string, at: int, dot: int) {
    && 0 <= at < dot < |s|
    && s[at] == '@' && s[dot] == '.'
    && PlainRun(s[..at]) && PlainRun(s[at + 1..dot]) && PlainRun(s[dot + 1..])
  }

  /** The language of the anchored pattern: some choice of the two separators matches. */
  ghost predicate EmailPattern(s: string) {
    exists at, dot :: SplitsAt(s, at, dot)
  }

  /** The index of the first `@`, or `|s|` when there is none. */
  function FirstAt(s: string): (i: nat)
    ensures i <= |s|
    ensures i < |s| ==> s[i] == '@'
    ensures forall j | 0 <= j < i :: s[j] != '@'
  {
    if |s| == 0 || s[0] == '@' then 0 else 1 + FirstAt(s[1..])
  }

  lemma {:induction false} FirstAtIs(s: string, i: nat)
    requires i < |s| && s[i] == '@'
    requires forall j | 0 <= j < i :: s[j] != '@'
    ensures FirstAt(s) == i
  {
  }

  /** `d` has a `.` with at least one character on each side. */
  predicate InnerDot(d: string) {
    exists i | 0 < i < |d| - 1 :: d[i] == '.'
  }

  /** The validator: split at the first `@`, then check both sides. It accepts exactly
      the strings the pattern matches. */
  function IsValidEmail(s: string): (r: bool)
    ensures r <==> EmailPattern(s)
  {
    var at := FirstAt(s);
    PatternAtFirstAt(s);
    0 < at < |s| && AllPlain(s[..at]) && AllPlain(s[at + 1..]) && InnerDot(s[at + 1..])
  }

  /** Only the first `@` can be the pattern's separator. */
  lemma {:induction false} PatternAtFirstAt(s: string)
    ensures var at := FirstAt(s);
            EmailPattern(s) <==>
              0 < at < |s| && AllPlain(s[..at]) && AllPlain(s[at + 1..]) && InnerDot(s[at + 1..])
  {
    var at := FirstAt(s);
    if 0 < at < |s| && AllPlain(s[..at]) && AllPlain(s[at + 1..]) && InnerDot(s[at + 1..]) {
      ValidMatches(s, at);
    }
    if EmailPattern(s) {
      MatchesValid(s);
    }
  }

  lemma {:induction false} ValidMatches(s: string, at: nat)
    requires 0 < at < |s| && s[at] == '@'
    requires AllPlain(s[..at]) && AllPlain(s[at + 1..]) && InnerDot(s[at + 1..])
    ensures EmailPattern(s)
  {
    var d := s[at + 1..];
    var i :| 0 < i < |d| - 1 && d[i] == '.';
    var dot := at + 1 + i;
    assert s[at + 1..dot] == d[..i];
    assert s[dot + 1..] == d[i + 1..];
    assert SplitsAt(s, at, dot);
  }

  lemma {:induction false} MatchesValid(s: string)
    requires EmailPattern(s)
    ensures var at := FirstAt(s);
            0 < at < |s| && AllPlain(s[..at]) && AllPlain(s[at + 1..]) && InnerDot(s[at + 1..])
  {
    var at, dot :| SplitsAt(s, at, dot);
    forall j | 0 <= j < at ensures s[j] != '@' {
      assert s[j] == s[..at][j];
    }
    FirstAtIs(s, at);
    DomainPlain(s, at, dot);
    assert s[at + 1..][dot - at - 1] == '.';
  }

  /** The two runs around the dot, and the dot itself, make a domain of plain characters. */
  lemma {:induction false} DomainPlain(s: string, at: int, dot: int)
    requires SplitsAt(s, at, dot)
    ensures AllPlain(s[at + 1..])
  {
    var d := s[at + 1..];
    var host, tld := s[at + 1..dot], s[dot + 1..];
    assert d == host + ['.'] + tld;
    forall j | 0 <= j < |d|
      ensures Plain(d[j])
    {
      if j < |host| {
        assert d[j] == host[j];
      } else if j > |host| {
        assert d[j] == tld[j - |host| - 1];
      }
    }
  }

  /** An `@` with a non-empty part before it, no other `@` and no white space anywhere,
      and a `.` in the domain with a character on each side of it. */
  predicate ShapedAt(s: string, at: int) {
    && 0 < at < |s| - 1
    && s[at] == '@'
    && (forall j | 0 <= j < |s| && j != at :: Plain(s[j]))
    && InnerDot(s[at + 1..])
  }

  /** What a valid address looks like, in words: exactly one `@`, a non-empty local part
      before it, no `@` or whitespace anywhere, and a `.` in the domain with a character on
      each side of it. */
  lemma {:induction false} ValidEmailShape(s: string)
    ensures IsValidEmail(s) <==> exists at :: ShapedAt(s, at)
  {
    if IsValidEmail(s) {
      ValidIsShaped(s);
    }
    if exists at :: ShapedAt(s, at) {
      var at :| ShapedAt(s, at);
      ShapedIsValid(s, at);
    }
  }

  lemma {:induction false} ValidIsShaped(s: string)
    requires IsValidEmail(s)
    ensures ShapedAt(s, FirstAt(s))
  {
    MatchesValid(s);
    var at := FirstAt(s);
    forall j | 0 <= j < |s| && j != at
      ensures Plain(s[j])
    {
      if j < at { assert s[j] == s[..at][j]; } else { assert s[j] == s[at + 1..][j - at - 1]; }
    }
  }

  lemma {:induction false} ShapedIsValid(s: string, at: int)
    requires ShapedAt(s, at)
    ensures IsValidEmail(s)
  {
    var d := s[at + 1..];
    assert AllPlain(s[..at]) by {
      forall j | 0 <= j < at ensures Plain(s[..at][j]) {
        assert s[..at][j] == s[j];
      }
    }
    assert AllPlain(d) by {
      forall j | 0 <= j < |d| ensures Plain(d[j]) {
        assert d[j] == s[at + 1 + j];
      }
    }
    ValidMatches(s, at);
  }

  /** A valid address has exactly one `@`. */
  lemma {:induction false} ValidEmailHasOneAt(s: string, i: int, j: int)
    requires IsValidEmail(s)
    requires 0 <= i < |s| && 0 <= j < |s| && s[i] == '@' && s[j] == '@'
    ensures i == j
  {
    ValidEmailShape(s);
  }

  /** Printable ASCII other than the space and `@` is of the class `[^\s@]`. */
  lemma {:induction false} PrintableIsPlain(s: string)
    requires forall i | 0 <= i < |s| :: '!' <= s[i] <= '~' && s[i] != '@'
    ensures AllPlain(s)
  {
  }

  /** An `@` with plain text on both sides and a `.` inside the domain: accepted. */
  lemma {:induction false} AcceptedAt(s: string, at: nat, dot: nat)
    requires 0 < at < |s| && s[at] == '@'
    requires AllPlain(s[..at]) && AllPlain(s[at + 1..])
    requires 0 < dot < |s| - at - 2 && s[at + 1 + dot] == '.'
    ensures IsValidEmail(s)
  {
    assert s[at + 1..][dot] == '.';
    ValidMatches(s, at);
  }

  /** Addresses accepted by the validator's test suite, each split at its `@` and at a
      `.` of its domain. */
  lemma AcceptsPlain()
    ensures IsValidEmail("test@example.com")
  {
    var s := "test@example.com";
    assert s[..4] == "test";
    assert s[5..] == "example.com";
    PrintableIsPlain("test");
    PrintableIsPlain("example.com");
    AcceptedAt(s, 4, 7);
  }

  lemma AcceptsDottedLocalPart()
    ensures IsValidEmail("user.name@example.com")
  {
    var s := "user.name@example.com";
    assert s[..9] == "user.name";
    assert s[10..] == "example.com";
    PrintableIsPlain("user.name");
    PrintableIsPlain("example.com");
    AcceptedAt(s, 9, 7);
  }

  lemma AcceptsPlusTag()
    ensures IsValidEmail("user+tag@example.co.uk")
  {
    var s := "user+tag@example.co.uk";
    assert s[..8] == "user+tag";
    assert s[9..] == "example.co.uk";
    PrintableIsPlain("user+tag");
    PrintableIsPlain("example.co.uk");
    AcceptedAt(s, 8, 7);
  }

  lemma AcceptsHyphenatedDomain()
    ensures IsValidEmail("user123@test-domain.com")
  {
    var s := "user123@test-domain.com";
    assert s[..7] == "user123";
    assert s[8..] == "test-domain.com";
    PrintableIsPlain("user123");
    PrintableIsPlain("test-domain.com");
    AcceptedAt(s, 7, 11);
  }

  lemma AcceptsShortest()
    ensures IsValidEmail("a@b.c")
  {
    var s := "a@b.c";
    assert s[..1] == "a";
    assert s[2..] == "b.c";
    PrintableIsPlain("a");
    PrintableIsPlain("b.c");
    AcceptedAt(s, 1, 1);
  }

  /** A string without an `@` is rejected. */
  lemma {:induction false} WithoutAtRejected(s: string)
    requires forall j | 0 <= j < |s| :: s[j] != '@'
    ensures !IsValidEmail(s)
  {
  }

  /** Strings rejected by the validator's test suite. */
  lemma RejectsNoAt()
    ensures !IsValidEmail("invalid")
  {
    WithoutAtRejected("invalid");
  }

  lemma RejectsEmptyLocalPart()
    ensures !IsValidEmail("@example.com")
  {
    FirstAtIs("@example.com", 0);
  }

  lemma RejectsEmptyDomain()
    ensures !IsValidEmail("user@")
  {
    FirstAtIs("user@", 4);
  }

  lemma RejectsSpace()
    ensures !IsValidEmail("user @example.com")
  {
    var s := "user @example.com";
    FirstAtIs(s, 5);
    assert !Plain(s[..5][4]);
  }

  lemma RejectsDomainWithoutDot()
    ensures !IsValidEmail("user@example")
  {
    var s := "user@example";
    FirstAtIs(s, 4);
    assert s[5..] == "example";
    assert forall i | 0 <= i < 7 :: "example"[i] != '.';
  }

  lemma RejectsDoubleAt()
    ensures !IsValidEmail("user@@example.com")
  {
    var s := "user@@example.com";
    FirstAtIs(s, 4);
    assert !Plain(s[5..][0]);
  }

  lemma RejectsDotRightAfterAt()
    ensures !IsValidEmail("user@.com")
  {
    var s := "user@.com";
    FirstAtIs(s, 4);
    assert s[5..] == ".com";
    assert ".com"[1] == 'c' && ".com"[2] == 'o';
  }

  lemma RejectsEmpty()
    ensures !IsValidEmail("")
  {
  }

  lemma RejectsBlank()
    ensures !IsValidEmail(" ")
  {
    WithoutAtRejected(" ");
  }

  /** `RegExp.prototype.test` converts its argument to a string first, so `null` is
      matched as the word "null". */
  lemma RejectsNull()
    ensures !IsValidEmail("null")
  {
    WithoutAtRejected("null");
  }

  /** Likewise `undefined` is matched as the word "undefined". */
  lemma RejectsUndefined()
    ensures !IsValidEmail("undefined")
  {
    WithoutAtRejected("undefined");
  }
}

=== FILE: entities.dfy ===
/** The `/api/users` and `/api/students` handlers of server.js. The two resources run the
    same code over different columns, so one set of handlers takes the `Kind`; only the
    required fields, the stored columns and the message texts depend on it. */
module Entities {
  import opened Options
  import opened JsText
  import opened JsNumber
  import opened Store
  import opened Http
  import Audit

  /** `req.body` of a POST or PUT. Users read `name` and `email` only. */
  datatype Body = Body(name: Option<string>, email: Option<string>, grade: Option<string>, major: Option<string>)

  function InvalidIdMessage(kind: Kind): string {
    match kind
    case User => "Invalid user ID"
    case Student => "Invalid student ID"
  }

  function RequiredMessage(kind: Kind): string {
    match kind
    case User => "Name and email are required"
    case Student => "Name, email, and grade are required"
  }

  function NotFoundMessage(kind: Kind): string {
    match kind
    case User => "User not found"
    case Student => "Student not found"
  }

  /** The reply to SQLSTATE 23505 (unique_violation), the one database error code the
      handlers translate. */
  const DuplicateEmailMessage := "Email already exists"

  function CreatedMessage(kind: Kind): string {
    match kind
    case User => "User created successfully"
    case Student => "Student registered successfully"
  }

  function UpdatedMessage(kind: Kind): string {
    match kind
    case User => "User updated successfully"
    case Student => "Student updated successfully"
  }

  function DeletedMessage(kind: Kind): string {
    match kind
    case User => "User deleted successfully"
    case Student => "Student deleted successfully"
  }

  function ListFailedMessage(kind: Kind): string {
    match kind
    case User => "Failed to fetch users"
    case Student => "Failed to fetch students"
  }

  function GetFailedMessage(kind: Kind): string {
    match kind
    case User => "Failed to fetch user"
    case Student => "Failed to fetch student"
  }

  function CreateFailedMessage(kind: Kind): string {
    match kind
    case User => "Failed to create user"
    case Student => "Failed to register student"
  }

  function UpdateFailedMessage(kind: Kind): string {
    match kind
    case User => "Failed to update user"
    case Student => "Failed to update student"
  }

  function DeleteFailedMessage(kind: Kind): string {
    match kind
    case User => "Failed to delete user"
    case Student => "Failed to delete student"
  }

  /** `!name || !email` for users, `!name || !email || !grade` for students, negated. */
  predicate HasRequired(kind: Kind, body: Body) {
    && !Missing(body.name) && !Missing(body.email)
    && (kind == Student ==> !Missing(body.grade))
  }

  /** The columns an INSERT or UPDATE writes; an empty or absent major is stored as
      `major || null`, that is NULL. */
  function StoredFields(kind: Kind, body: Body): (f: Fields)
    requires HasRequired(kind, body)
    ensures FieldsOfKind(kind, f) && f.name == body.name.value && f.email == body.email.value
    ensures f.StudentFields? ==> f.grade == body.grade.value
    ensures f.StudentFields? ==> (f.major.None? <==> Missing(body.major))
    ensures f.StudentFields? && f.major.Some? ==> f.major == body.major
  {
    match kind
    case User => UserFields(body.name.value, body.email.value)
    case Student =>
      StudentFields(body.name.value, body.email.value, body.grade.value,
                    if Missing(body.major) then None else body.major)
  }

  /** The fields as `logAudit` receives them: the request's own values, so a student's
      major is not passed through `|| null`. */
  function SubmittedFields(kind: Kind, body: Body): Fields
    requires HasRequired(kind, body)
  {
    match kind
    case User => UserFields(body.name.value, body.email.value)
    case Student => StudentFields(body.name.value, body.email.value, body.grade.value, body.major)
  }

  /** `GET /api/users/:id` and `GET /api/students/:id`. */
  function Get(db: Db, kind: Kind, rawId: string, env: Env): (resp: Response)
    ensures ParseInt(rawId).None? ==> resp == Fail(400, InvalidIdMessage(kind))
    ensures ParseInt(rawId).Some? && !env.storeUp ==> resp == Fail(500, GetFailedMessage(kind))
    ensures resp.code == 404 <==>
              ParseInt(rawId).Some? && env.storeUp && ParseInt(rawId).value !in TableOf(db, kind)
    ensures resp.code == 404 ==> resp == Fail(404, NotFoundMessage(kind))
    ensures resp.code == 200 <==>
              ParseInt(rawId).Some? && env.storeUp && ParseInt(rawId).value in TableOf(db, kind)
    ensures resp.code == 200 ==>
              var id := ParseInt(rawId).value;
              resp.status == Success && resp.payload == Entity(id, TableOf(db, kind)[id])
  {
    match ParseInt(rawId)
    case None => Fail(400, InvalidIdMessage(kind))
    case Some(id) =>
      if !env.storeUp then Fail(500, GetFailedMessage(kind))
      else if id !in TableOf(db, kind) then Fail(404, NotFoundMessage(kind))
      else Response(200, Success, None, Entity(id, TableOf(db, kind)[id]))
  }

  /** `POST /api/users` and `POST /api/students`: required fields, then the INSERT, whose
      unique violation becomes 409, then the CREATE audit entry. */
  function Create(db: Db, kind: Kind, body: Body, env: Env): (o: Outcome)
    requires Valid(db)
    ensures Valid(o.db)
    ensures !HasRequired(kind, body) ==> o == Outcome(Fail(400, RequiredMessage(kind)), db)
    ensures HasRequired(kind, body) && !env.storeUp ==> o == Outcome(Fail(500, CreateFailedMessage(kind)), db)
    ensures o.resp.code == 409 <==>
              HasRequired(kind, body) && env.storeUp && EmailTaken(TableOf(db, kind), body.email.value)
    ensures o.resp.code == 409 ==> o == Outcome(Fail(409, DuplicateEmailMessage), db)
    ensures o.resp.code == 201 <==>
              HasRequired(kind, body) && env.storeUp && !EmailTaken(TableOf(db, kind), body.email.value)
    ensures o.resp.code != 201 ==> o.db == db
    ensures o.resp.code == 201 ==>
              && o.resp.status == Success && o.resp.message == Some(CreatedMessage(kind))
              && o.resp.payload.Entity?
              && var id := o.resp.payload.id;
              && id !in TableOf(db, kind) && id >= 1
              && TableOf(o.db, kind) == TableOf(db, kind)[id := o.resp.payload.row]
              && o.resp.payload.row.fields == StoredFields(kind, body)
              && TableOf(o.db, OtherKind(kind)) == TableOf(db, OtherKind(kind))
              && o.db.votes == db.votes
              && |o.db.audit| == |db.audit| + (if env.auditUp then 1 else 0)
              && o.db.audit[..|db.audit|] == db.audit
              && (env.auditUp ==>
                    var e := o.db.audit[|db.audit|];
                    e.action == CREATE && e.kind == kind && e.entityId == id
                    && e.userName == body.name.value && e.userEmail == body.email.value && e.ip == env.ip
                    && e.changes == Snapshot(SubmittedFields(kind, body)))
  {
    if !HasRequired(kind, body) then Outcome(Fail(400, RequiredMessage(kind)), db)
    else if !env.storeUp then Outcome(Fail(500, CreateFailedMessage(kind)), db)
    else
      var t := TableOf(db, kind);
      var fields := StoredFields(kind, body);
      if EmailTaken(t, fields.email) then Outcome(Fail(409, DuplicateEmailMessage), db)
      else
        var id := NextIdOf(db, kind);
        var row := Row(fields, db.clock);
        var inserted := AfterInsert(db, kind, t[id := row]);
        InsertKeepsValid(db, kind, id, row);
        var logged := Audit.Record(inserted, env, CREATE, kind, id, fields.name, fields.email,
                                   Snapshot(SubmittedFields(kind, body)));
        Outcome(Response(201, Success, Some(CreatedMessage(kind)), Entity(id, row)), logged)
  }

  function OtherKind(kind: Kind): Kind {
    match kind
    case User => Student
    case Student => User
  }

  /** `PUT /api/users/:id` and `PUT /api/students/:id`: id, then required fields, then
      the existence check, then the UPDATE, then a before/after audit entry. */
  function Update(db: Db, kind: Kind, rawId: string, body: Body, env: Env): (o: Outcome)
    requires Valid(db)
    ensures Valid(o.db)
    ensures ParseInt(rawId).None? ==> o == Outcome(Fail(400, InvalidIdMessage(kind)), db)
    ensures ParseInt(rawId).Some? && !HasRequired(kind, body) ==>
              o == Outcome(Fail(400, RequiredMessage(kind)), db)
    ensures ParseInt(rawId).Some? && HasRequired(kind, body) && !env.storeUp ==>
              o == Outcome(Fail(500, UpdateFailedMessage(kind)), db)
    ensures o.resp.code == 404 <==>
              ParseInt(rawId).Some? && HasRequired(kind, body) && env.storeUp
              && ParseInt(rawId).value !in TableOf(db, kind)
    ensures o.resp.code == 404 ==> o == Outcome(Fail(404, NotFoundMessage(kind)), db)
    ensures o.resp.code == 409 <==>
              ParseInt(rawId).Some? && HasRequired(kind, body) && env.storeUp
              && ParseInt(rawId).value in TableOf(db, kind)
              && EmailTakenByOther(TableOf(db, kind), ParseInt(rawId).value, body.email.value)
    ensures o.resp.code == 409 ==> o == Outcome(Fail(409, DuplicateEmailMessage), db)
    ensures o.resp.code == 200 <==>
              ParseInt(rawId).Some? && HasRequired(kind, body) && env.storeUp
              && ParseInt(rawId).value in TableOf(db, kind)
              && !EmailTakenByOther(TableOf(db, kind), ParseInt(rawId).value, body.email.value)
    ensures o.resp.code != 200 ==> o.db == db
    ensures o.resp.code == 200 ==>
              var id := ParseInt(rawId).value;
              var t := TableOf(db, kind);
              && id in t && o.resp.status == Success && o.resp.message == Some(UpdatedMessage(kind))
              && TableOf(o.db, kind).Keys == t.Keys
              && o.resp.payload == Entity(id, TableOf(o.db, kind)[id])
              && TableOf(o.db, kind)[id].fields == StoredFields(kind, body)
              && TableOf(o.db, kind)[id].createdAt == t[id].createdAt
              && (forall k | k in t && k != id :: TableOf(o.db, kind)[k] == t[k])
              && TableOf(o.db, OtherKind(kind)) == TableOf(db, OtherKind(kind))
              && o.db.votes == db.votes
              && |o.db.audit| == |db.audit| + (if env.auditUp then 1 else 0)
              && o.db.audit[..|db.audit|] == db.audit
              && (env.auditUp ==>
                    var e := o.db.audit[|db.audit|];
                    e.action == UPDATE && e.kind == kind && e.entityId == id
                    && e.userName == body.name.value && e.userEmail == body.email.value && e.ip == env.ip
                    && e.changes == Diff(t[id].fields, SubmittedFields(kind, body)))
  {
    match ParseInt(rawId)
    case None => Outcome(Fail(400, InvalidIdMessage(kind)), db)
    case Some(id) =>
      if !HasRequired(kind, body) then Outcome(Fail(400, RequiredMessage(kind)), db)
      else if !env.storeUp then Outcome(Fail(500, UpdateFailedMessage(kind)), db)
      else UpdateRow(db, kind, id, body, env)
  }

  /** The part of an update after the request has been checked: the existence check,
      then the UPDATE, whose unique violation becomes 409. */
  function UpdateRow(db: Db, kind: Kind, id: int, body: Body, env: Env): (o: Outcome)
    requires Valid(db) && HasRequired(kind, body)
    ensures Valid(o.db)
    ensures o.resp.code == 404 <==> id !in TableOf(db, kind)
    ensures o.resp.code == 404 ==> o == Outcome(Fail(404, NotFoundMessage(kind)), db)
    ensures o.resp.code == 409 <==>
              id in TableOf(db, kind) && EmailTakenByOther(TableOf(db, kind), id, body.email.value)
    ensures o.resp.code == 409 ==> o == Outcome(Fail(409, DuplicateEmailMessage), db)
    ensures o.resp.code == 200 <==>
              id in TableOf(db, kind) && !EmailTakenByOther(TableOf(db, kind), id, body.email.value)
    ensures o.resp.code == 200 ==>
              var t := TableOf(db, kind);
              && id in t && o.resp.status == Success && o.resp.message == Some(UpdatedMessage(kind))
              && TableOf(o.db, kind) == t[id := Row(StoredFields(kind, body), t[id].createdAt)]
              && o.resp.payload == Entity(id, TableOf(o.db, kind)[id])
              && TableOf(o.db, OtherKind(kind)) == TableOf(db, OtherKind(kind))
              && o.db.votes == db.votes
              && |o.db.audit| == |db.audit| + (if env.auditUp then 1 else 0)
              && o.db.audit[..|db.audit|] == db.audit
              && (env.auditUp ==>
                    var e := o.db.audit[|db.audit|];
                    e.action == UPDATE && e.kind == kind && e.entityId == id
                    && e.userName == body.name.value && e.userEmail == body.email.value && e.ip == env.ip
                    && e.changes == Diff(t[id].fields, SubmittedFields(kind, body)))
  {
    var t := TableOf(db, kind);
    if id !in t then Outcome(Fail(404, NotFoundMessage(kind)), db)
    else
      var fields := StoredFields(kind, body);
      if EmailTakenByOther(t, id, fields.email) then Outcome(Fail(409, DuplicateEmailMessage), db)
      else
        var row := Row(fields, t[id].createdAt);
        Outcome(Response(200, Success, Some(UpdatedMessage(kind)), Entity(id, row)),
                Rewrite(db, kind, id, row, SubmittedFields(kind, body), env))
  }

  /** The UPDATE of row `id` and its audit entry: only that row of the table changes, and
      the entry records the row's fields before and the submitted ones after. */
  function Rewrite(db: Db, kind: Kind, id: int, row: Row, submitted: Fields, env: Env): (r: Db)
    requires Valid(db)
    requires id in TableOf(db, kind) && row.createdAt == TableOf(db, kind)[id].createdAt
    requires FieldsOfKind(kind, row.fields)
    requires !EmailTakenByOther(TableOf(db, kind), id, row.fields.email)
    ensures Valid(r)
    ensures TableOf(r, kind) == TableOf(db, kind)[id := row]
    ensures TableOf(r, OtherKind(kind)) == TableOf(db, OtherKind(kind))
    ensures r.votes == db.votes
    ensures |r.audit| == |db.audit| + (if env.auditUp then 1 else 0)
    ensures r.audit[..|db.audit|] == db.audit
    ensures env.auditUp ==>
              var e := r.audit[|db.audit|];
              e.action == UPDATE && e.kind == kind && e.entityId == id
              && e.userName == row.fields.name && e.userEmail == row.fields.email && e.ip == env.ip
              && e.changes == Diff(TableOf(db, kind)[id].fields, submitted)
  {
    var t := TableOf(db, kind);
    var updated := WithTable(db, kind, t[id := row]);
    ReplaceKeepsValid(db, kind, id, row);
    Audit.Record(updated, env, UPDATE, kind, id, row.fields.name, row.fields.email,
                 Diff(t[id].fields, submitted))
  }

  /** `DELETE /api/users/:id` and `DELETE /api/students/:id`: `DELETE ... RETURNING` and a
      snapshot of the removed row in the audit log. */
  function Delete(db: Db, kind: Kind, rawId: string, env: Env): (o: Outcome)
    requires Valid(db)
    ensures Valid(o.db)
    ensures ParseInt(rawId).None? ==> o == Outcome(Fail(400, InvalidIdMessage(kind)), db)
    ensures ParseInt(rawId).Some? && !env.storeUp ==> o == Outcome(Fail(500, DeleteFailedMessage(kind)), db)
    ensures o.resp.code == 404 <==>
              ParseInt(rawId).Some? && env.storeUp && ParseInt(rawId).value !in TableOf(db, kind)
    ensures o.resp.code == 404 ==> o == Outcome(Fail(404, NotFoundMessage(kind)), db)
    ensures o.resp.code == 200 <==>
              ParseInt(rawId).Some? && env.storeUp && ParseInt(rawId).value in TableOf(db, kind)
    ensures o.resp.code != 200 ==> o.db == db
    ensures o.resp.code == 200 ==>
              var id := ParseInt(rawId).value;
              var t := TableOf(db, kind);
              && id in t && o.resp.status == Success && o.resp.message == Some(DeletedMessage(kind))
              && o.resp.payload == Removed(id, t[id].fields)
              && TableOf(o.db, kind) == t - {id}
              && TableOf(o.db, OtherKind(kind)) == TableOf(db, OtherKind(kind))
              && o.db.votes == db.votes
              && |o.db.audit| == |db.audit| + (if env.auditUp then 1 else 0)
              && o.db.audit[..|db.audit|] == db.audit
              && (env.auditUp ==>
                    var e := o.db.audit[|db.audit|];
                    e.action == DELETE && e.kind == kind && e.entityId == id
                    && e.userName == t[id].fields.name && e.userEmail == t[id].fields.email && e.ip == env.ip
                    && e.changes == Snapshot(t[id].fields))
  {
    match ParseInt(rawId)
    case None => Outcome(Fail(400, InvalidIdMessage(kind)), db)
    case Some(id) =>
      if !env.storeUp then Outcome(Fail(500, DeleteFailedMessage(kind)), db)
      else
        var t := TableOf(db, kind);
        if id !in t then Outcome(Fail(404, NotFoundMessage(kind)), db)
        else
          var gone := t[id].fields;
          var removed := WithTable(db, kind, t - {id});
          RemoveKeepsValid(db, kind, id);
          var logged := Audit.Record(removed, env, DELETE, kind, id, gone.name, gone.email, Snapshot(gone));
          Outcome(Response(200, Success, Some(DeletedMessage(kind)), Removed(id, gone)), logged)
  }

  /** The rows of a table as (id, row) pairs, one per id. */
  function Entries(t: Table): set<(int, Row)> {
    set id | id in t :: (id, t[id])
  }

  /** `ORDER BY created_at DESC`: ties may come in any order. */
  predicate NewestFirst(rows: seq<(int, Row)>) {
    forall i, j | 0 <= i < j < |rows| :: rows[i].1.createdAt >= rows[j].1.createdAt
  }

  /** `e` placed into a newest-first list in front of the first row not newer than it. */
  function InsertNewestFirst(rows: seq<(int, Row)>, e: (int, Row)): (r: seq<(int, Row)>)
    requires NewestFirst(rows)
    ensures NewestFirst(r)
    ensures multiset(r) == multiset(rows) + multiset{e}
  {
    if |rows| == 0 || e.1.createdAt >= rows[0].1.createdAt then
      PrependKeepsNewestFirst(e, rows);
      [e] + rows
    else
      var tail := InsertNewestFirst(rows[1..], e);
      assert rows == [rows[0]] + rows[1..];
      forall i | 0 <= i < |tail|
        ensures tail[i].1.createdAt <= rows[0].1.createdAt
      {
        assert tail[i] in multiset(tail);
        if tail[i] != e {
          assert tail[i] in multiset(rows[1..]);
        }
      }
      PrependKeepsNewestFirst(rows[0], tail);
      [rows[0]] + tail
  }

  /** A row no older than any in a newest-first list can go in front of it. */
  lemma {:induction false} PrependKeepsNewestFirst(e: (int, Row), rows: seq<(int, Row)>)
    requires NewestFirst(rows)
    requires forall i | 0 <= i < |rows| :: rows[i].1.createdAt <= e.1.createdAt
    ensures NewestFirst([e] + rows)
  {
    var r := [e] + rows;
    forall i, j | 0 <= i < j < |r|
      ensures r[i].1.createdAt >= r[j].1.createdAt
    {
      if i > 0 { assert r[i] == rows[i - 1] && r[j] == rows[j - 1]; }
      else { assert r[j] == rows[j - 1]; }
    }
  }

  /** The `SELECT ... ORDER BY created_at DESC` of the list endpoints: every row of the
      table exactly once, newest first. */
  method SortedRows(t: Table) returns (rows: seq<(int, Row)>)
    ensures NewestFirst(rows)
    ensures multiset(rows) == multiset(Entries(t))
  {
    rows := [];
    var left := Entries(t);
    while left != {}
      invariant NewestFirst(rows)
      invariant multiset(rows) + multiset(left) == multiset(Entries(t))
      decreases |left|
    {
      var e :| e in left;
      rows := InsertNewestFirst(rows, e);
      assert multiset(left) == multiset(left - {e}) + multiset{e};
      left := left - {e};
    }
  }

  /** `GET /api/users` and `GET /api/students`: all rows newest first, and `count` equal to
      the number of rows returned. */
  method List(db: Db, kind: Kind, env: Env) returns (resp: Response)
    ensures !env.storeUp ==> resp == Fail(500, ListFailedMessage(kind))
    ensures env.storeUp ==> resp.code == 200 && resp.status == Success && resp.payload.Listing?
    ensures env.storeUp ==>
              var rows := resp.payload.rows;
              && resp.payload.count == |rows|
              && NewestFirst(rows)
              && multiset(rows) == multiset(Entries(TableOf(db, kind)))
  {
    if !env.storeUp {
      return Fail(500, ListFailedMessage(kind));
    }
    var rows := SortedRows(TableOf(db, kind));
    resp := Response(200, Success, None, Listing(|rows|, rows));
  }

  /** A listed pair is a row of the table under its own id, and every id of the table is
      listed. */
  lemma {:induction false} ListingMatchesTable(t: Table, rows: seq<(int, Row)>)
    requires multiset(rows) == multiset(Entries(t))
    ensures forall i | 0 <= i < |rows| :: rows[i].0 in t && t[rows[i].0] == rows[i].1
    ensures forall id | id in t :: (id, t[id]) in rows
  {
    forall i | 0 <= i < |rows|
      ensures rows[i].0 in t && t[rows[i].0] == rows[i].1
    {
      assert rows[i] in multiset(rows);
    }
    forall id | id in t
      ensures (id, t[id]) in rows
    {
      assert (id, t[id]) in Entries(t);
      assert (id, t[id]) in multiset(Entries(t));
    }
  }
}

=== FILE: entity_lifecycle.dfy ===
/** Properties of the user and student handlers that relate several requests: a created row
    can be fetched by its id, a deleted one cannot, emails stay unique across creates,
    and a failing audit insert is invisible to the client. */
module EntityLifecycle {
  import opened Options
  import opened JsNumber
  import opened Store
  import opened Http
  import opened Entities

  /** The id a create returns, written in a URL, fetches exactly the row it created. */
  lemma {:induction false} CreatedIsFetchable(db: Db, kind: Kind, body: Body, env: Env)
    requires Valid(db)
    requires Create(db, kind, body, env).resp.code == 201
    ensures var o := Create(db, kind, body, env);
            var id := o.resp.payload.id;
            id >= 1 && Get(o.db, kind, ToDecimal(id), env) == Response(200, Success, None, o.resp.payload)
  {
    var o := Create(db, kind, body, env);
    ParseIntOfDecimal(o.resp.payload.id, "");
    assert ToDecimal(o.resp.payload.id) + "" == ToDecimal(o.resp.payload.id);
  }

  /** A negative id passes the NaN check, but ids start at 1, so it is never found. */
  lemma {:induction false} NegativeIdNotFound(db: Db, kind: Kind, n: nat, env: Env)
    requires Valid(db) && env.storeUp && n > 0
    ensures Get(db, kind, "-" + ToDecimal(n), env) == Fail(404, NotFoundMessage(kind))
  {
    ParseIntOfNegative(n);
    assert -(n as int) !in TableOf(db, kind) by {
      match kind
      case User =>
      case Student =>
    }
  }

  /** After a successful delete, fetching the same id gives 404. */
  lemma {:induction false} DeletedIsGone(db: Db, kind: Kind, rawId: string, env: Env)
    requires Valid(db)
    requires Delete(db, kind, rawId, env).resp.code == 200
    ensures Get(Delete(db, kind, rawId, env).db, kind, rawId, env) == Fail(404, NotFoundMessage(kind))
  {
  }

  /** Two creates with the same email: once the first has succeeded, the second is refused
      with 409 and changes nothing, whichever of the two bodies comes first. */
  lemma {:induction false} SameEmailCreatedOnce(db: Db, kind: Kind, first: Body, second: Body, env: Env, env2: Env)
    requires Valid(db)
    requires Create(db, kind, first, env).resp.code == 201
    requires HasRequired(kind, second) && second.email == first.email && env2.storeUp
    ensures var o := Create(db, kind, first, env);
            Create(o.db, kind, second, env2) == Outcome(Fail(409, DuplicateEmailMessage), o.db)
  {
    var o := Create(db, kind, first, env);
    var id := o.resp.payload.id;
    assert TableOf(o.db, kind)[id].fields.email == second.email.value;
  }

  /** Deleting what was just created restores both entity tables; only the id sequence,
      the clock and the audit log remember it. */
  lemma {:induction false} CreateThenDeleteRestoresTables(db: Db, kind: Kind, body: Body, env: Env)
    requires Valid(db)
    requires Create(db, kind, body, env).resp.code == 201
    ensures var o := Create(db, kind, body, env);
            var d := Delete(o.db, kind, ToDecimal(o.resp.payload.id), env);
            && d.resp.code == 200
            && TableOf(d.db, kind) == TableOf(db, kind)
            && TableOf(d.db, OtherKind(kind)) == TableOf(db, OtherKind(kind))
            && d.db.votes == db.votes
  {
    CreatedIsDeletable(db, kind, body, env);
    DeleteUndoesInsert(db, kind, body, env);
    DeleteAfterCreateFrame(db, kind, body, env);
  }

  lemma {:induction false} DeleteUndoesInsert(db: Db, kind: Kind, body: Body, env: Env)
    requires Valid(db)
    requires Create(db, kind, body, env).resp.code == 201
    ensures var o := Create(db, kind, body, env);
            TableOf(Delete(o.db, kind, ToDecimal(o.resp.payload.id), env).db, kind) == TableOf(db, kind)
  {
    var o := Create(db, kind, body, env);
    var id := o.resp.payload.id;
    CreatedIsDeletable(db, kind, body, env);
    var t := TableOf(db, kind);
    assert TableOf(o.db, kind) == t[id := o.resp.payload.row];
    RemoveInserted(t, id, o.resp.payload.row);
  }

  lemma {:induction false} RemoveInserted(t: Table, id: int, row: Row)
    requires id !in t
    ensures t[id := row] - {id} == t
  {
  }

  lemma {:induction false} DeleteAfterCreateFrame(db: Db, kind: Kind, body: Body, env: Env)
    requires Valid(db)
    requires Create(db, kind, body, env).resp.code == 201
    ensures var o := Create(db, kind, body, env);
            var d := Delete(o.db, kind, ToDecimal(o.resp.payload.id), env);
            TableOf(d.db, OtherKind(kind)) == TableOf(db, OtherKind(kind)) && d.db.votes == db.votes
  {
    CreatedIsDeletable(db, kind, body, env);
  }

  lemma {:induction false} CreatedIsDeletable(db: Db, kind: Kind, body: Body, env: Env)
    requires Valid(db)
    requires Create(db, kind, body, env).resp.code == 201
    ensures var o := Create(db, kind, body, env);
            ParseInt(ToDecimal(o.resp.payload.id)) == Some(o.resp.payload.id)
            && Delete(o.db, kind, ToDecimal(o.resp.payload.id), env).resp.code == 200
  {
    var o := Create(db, kind, body, env);
    var id := o.resp.payload.id;
    ParseIntOfDecimal(id, "");
    assert ToDecimal(id) + "" == ToDecimal(id);
    assert id in TableOf(o.db, kind);
  }

  /** An update is visible to the next fetch, with the timestamp the row was created with. */
  lemma {:induction false} UpdatedIsFetched(db: Db, kind: Kind, rawId: string, body: Body, env: Env)
    requires Valid(db)
    requires Update(db, kind, rawId, body, env).resp.code == 200
    ensures var id := ParseInt(rawId).value;
            var r := Get(Update(db, kind, rawId, body, env).db, kind, rawId, env);
            r.code == 200 && r.payload.row.fields == StoredFields(kind, body)
            && r.payload.row.createdAt == TableOf(db, kind)[id].createdAt
  {
  }

  /** Repeating an update leaves the table as the first one left it. */
  lemma {:induction false} UpdateIdempotentOnTable(db: Db, kind: Kind, rawId: string, body: Body, env: Env)
    requires Valid(db)
    requires Update(db, kind, rawId, body, env).resp.code == 200
    ensures var o := Update(db, kind, rawId, body, env);
            var o2 := Update(o.db, kind, rawId, body, env);
            o2.resp.code == 200 && TableOf(o2.db, kind) == TableOf(o.db, kind)
  {
  }

  /** Whether the audit insert succeeds never shows in the reply, nor in any entity or
      rating table: `logAudit` swallows its own failure. */
  lemma {:induction false} CreateIgnoresAuditFailure(db: Db, kind: Kind, body: Body, env: Env)
    requires Valid(db)
    ensures var a, b := Create(db, kind, body, env), Create(db, kind, body, env.(auditUp := false));
            a.resp == b.resp && Tables(a.db) == Tables(b.db)
  {
  }

  lemma {:induction false} UpdateIgnoresAuditFailure(db: Db, kind: Kind, rawId: string, body: Body, env: Env)
    requires Valid(db)
    ensures var a, b := Update(db, kind, rawId, body, env), Update(db, kind, rawId, body, env.(auditUp := false));
            a.resp == b.resp && Tables(a.db) == Tables(b.db)
  {
  }

  lemma {:induction false} DeleteIgnoresAuditFailure(db: Db, kind: Kind, rawId: string, env: Env)
    requires Valid(db)
    ensures var a, b := Delete(db, kind, rawId, env), Delete(db, kind, rawId, env.(auditUp := false));
            a.resp == b.resp && Tables(a.db) == Tables(b.db)
  {
  }

  /** Everything a client can read back except the audit log. */
  function Tables(db: Db): (Table, Table, seq<Vote>) {
    (db.users, db.students, db.votes)
  }
}

=== FILE: form_data.dfy ===
/** `getFormData` of the browser utilities: the entries of a form, in document order,
    copied one by one into a plain object. */
module FormData {
  /** Assigning a string to `data["__proto__"]` goes through the inherited `__proto__`
      setter, which ignores anything that is not an object: no property is created. */
  const ProtoKey := "__proto__"

  /** Some entry has key `k`. */
  predicate HasKey(entries: seq<(string, string)>, k: string) {
    exists i | 0 <= i < |entries| :: entries[i].0 == k
  }

  /** Entry `i` is the last one with its key. */
  predicate LastOfKey(entries: seq<(string, string)>, i: int) {
    0 <= i < |entries| && forall j | i < j < |entries| :: entries[j].0 != entries[i].0
  }

  /** The fold `data[key] = value`: a later entry with the same key overwrites an earlier
      one. The result holds every key of the form except `__proto__`, each with the value
      of its last entry. */
  function GetFormData(entries: seq<(string, string)>): (data: map<string, string>)
    ensures forall k :: k in data <==> k != ProtoKey && HasKey(entries, k)
    ensures forall i | LastOfKey(entries, i) && entries[i].0 != ProtoKey ::
              entries[i].0 in data && data[entries[i].0] == entries[i].1
  {
    if |entries| == 0 then map[]
    else
      var init := entries[..|entries| - 1];
      var (k, v) := entries[|entries| - 1];
      assert entries == init + [(k, v)];
      var earlier := GetFormData(init);
      var data := if k == ProtoKey then earlier else earlier[k := v];
      KeysAfterStep(init, k, v, earlier, data);
      ValuesAfterStep(init, k, v, earlier, data);
      data
  }

  /** Keys of one more fold step: those of the earlier entries plus the new key. */
  lemma {:induction false} KeysAfterStep(init: seq<(string, string)>, k: string, v: string,
                      earlier: map<string, string>, data: map<string, string>)
    requires forall k' :: k' in earlier <==> k' != ProtoKey && HasKey(init, k')
    requires data == if k == ProtoKey then earlier else earlier[k := v]
    ensures forall k' :: k' in data <==> k' != ProtoKey && HasKey(init + [(k, v)], k')
  {
    var entries := init + [(k, v)];
    forall k' | HasKey(init, k') ensures HasKey(entries, k') {
      var i :| 0 <= i < |init| && init[i].0 == k';
      assert entries[i].0 == k';
    }
    forall k' | HasKey(entries, k') && k' != k ensures HasKey(init, k') {
      var i :| 0 <= i < |entries| && entries[i].0 == k';
      assert init[i].0 == k';
    }
    assert HasKey(entries, k) by { assert entries[|init|].0 == k; }
  }

  /** Values of one more fold step: the new entry is the last of its key; every other
      last entry was already last among the earlier ones. */
  lemma {:induction false} ValuesAfterStep(init: seq<(string, string)>, k: string, v: string,
                        earlier: map<string, string>, data: map<string, string>)
    requires forall k' :: k' in earlier <==> k' != ProtoKey && HasKey(init, k')
    requires forall i | LastOfKey(init, i) && init[i].0 != ProtoKey ::
               init[i].0 in earlier && earlier[init[i].0] == init[i].1
    requires data == if k == ProtoKey then earlier else earlier[k := v]
    ensures var entries := init + [(k, v)];
            forall i | LastOfKey(entries, i) && entries[i].0 != ProtoKey ::
              entries[i].0 in data && data[entries[i].0] == entries[i].1
  {
    var entries := init + [(k, v)];
    forall i | LastOfKey(entries, i) && entries[i].0 != ProtoKey
      ensures entries[i].0 in data && data[entries[i].0] == entries[i].1
    {
      if i < |init| {
        assert init[i] == entries[i];
        assert entries[|init|].0 == k;
        assert init[i].0 != k;
        forall j | i < j < |init| ensures init[j].0 != init[i].0 {
          assert init[j] == entries[j];
        }
        assert LastOfKey(init, i);
        assert data[init[i].0] == earlier[init[i].0];
      } else {
        assert entries[i] == (k, v);
      }
    }
  }

  /** A form with no entries gives an empty object. */
  lemma EmptyFormGivesEmptyObject()
    ensures GetFormData([]) == map[]
  {
  }

  /** The object of the utility's test: two distinct keys, each with its value. */
  lemma TwoFieldExample()
    ensures GetFormData([("name", "John Doe"), ("email", "john@example.com")])
            == map["name" := "John Doe", "email" := "john@example.com"]
  {
    var e := [("name", "John Doe"), ("email", "john@example.com")];
    var d := GetFormData(e);
    assert e[0].0 == "name" && e[1].0 == "email";
    assert "name"[0] != "email"[0] && "name"[0] != ProtoKey[0] && "email"[0] != ProtoKey[0];
    assert LastOfKey(e, 0) && LastOfKey(e, 1);
    assert d["name"] == "John Doe" && d["email"] == "john@example.com";
    assert d.Keys == {"name", "email"};
  }

  /** Reading a key back gives the value of its last entry, so appending an entry for a
      key is seen by the next read of that key and by no other. */
  lemma {:induction false} LaterEntryWins(entries: seq<(string, string)>, k: string, v: string)
    requires k != ProtoKey
    ensures var data := GetFormData(entries + [(k, v)]);
            && data[k] == v
            && forall k' | k' != k :: (k' in data <==> k' in GetFormData(entries))
                                     && (k' in data ==> data[k'] == GetFormData(entries)[k'])
  {
    var e := entries + [(k, v)];
    assert LastOfKey(e, |entries|);
    assert e[..|entries|] == entries;
  }
}

=== FILE: http.dfy ===
/** The JSON responses of server.js, reduced to what a client can observe: the HTTP status
    code, the envelope's `status` and `message`, and the payload. */
module Http {
  import opened Options
  import opened Store

  datatype Status = Success | Error

  datatype Payload =
    | NoPayload
      /** One entity with its generated id and timestamp (`RETURNING id, ..., created_at`). */
    | Entity(id: int, row: Row)
      /** A deleted entity: `DELETE ... RETURNING` leaves out `created_at`. */
    | Removed(id: int, fields: Fields)
    | Listing(count: nat, rows: seq<(int, Row)>)
    | Tally(up: nat, down: nat, userRating: Option<RatingType>)
    | Logs(count: nat, logs: seq<AuditEntry>)

  datatype Response = Response(code: nat, status: Status, message: Option<string>, payload: Payload)

  /** An `{ status: 'error', message }` reply. The raw `error.message` that 500 replies
      also carry is not modelled. */
  function Fail(code: nat, message: string): Response {
    Response(code, Error, Some(message), NoPayload)
  }

  /** A handler's reply together with the database it leaves behind. */
  datatype Outcome = Outcome(resp: Response, db: Db)

  /** What a request brings besides its body: the client address (`req.ip`), whether
      the database answers queries, and whether the audit insert succeeds. */
  datatype Env = Env(ip: string, storeUp: bool, auditUp: bool)
}

=== FILE: js_number.dfy ===
/** Integer <-> string conversions of the JavaScript runtime that the core depends on:
    `parseInt(str)` on route parameters (server.js) and the decimal rendering of a
    count inside a template literal (public/js/utils.js). Numbers are unbounded here. */
module JsNumber {
  import opened Options
  import opened JsText

  /** The value `parseInt` gives a character in any radix up to 36, if it is a digit at all. */
  function DigitValue(c: char): Option<nat> {
    if '0' <= c <= '9' then Some(c as int - '0' as int)
    else if 'a' <= c <= 'z' then Some(c as int - 'a' as int + 10)
    else if 'A' <= c <= 'Z' then Some(c as int - 'A' as int + 10)
    else None
  }

  predicate IsDigit(c: char, radix: nat) {
    DigitValue(c).Some? && DigitValue(c).value < radix
  }

  predicate AllDigits(s: string, radix: nat) {
    forall i | 0 <= i < |s| :: IsDigit(s[i], radix)
  }

  /** Length of the longest prefix of `s` made of radix digits. */
  function DigitRun(s: string, radix: nat): (n: nat)
    ensures n <= |s|
    ensures AllDigits(s[..n], radix)
    ensures n < |s| ==> !IsDigit(s[n], radix)
  {
    if |s| > 0 && IsDigit(s[0], radix) then 1 + DigitRun(s[1..], radix) else 0
  }

  /** The number a digit string denotes, most significant digit first. */
  function ValueOf(digits: string, radix: nat): nat
    requires AllDigits(digits, radix)
  {
    if |digits| == 0 then 0
    else
      var init := digits[..|digits| - 1];
      PrefixOfDigits(digits, radix, |digits| - 1);
      ValueOf(init, radix) * radix + DigitValue(digits[|digits| - 1]).value
  }

  lemma {:induction false} PrefixOfDigits(digits: string, radix: nat, n: nat)
    requires AllDigits(digits, radix) && n <= |digits|
    ensures AllDigits(digits[..n], radix)
  {
    forall i | 0 <= i < n ensures IsDigit(digits[..n][i], radix) {
      assert digits[..n][i] == digits[i];
    }
  }

  /** Drops leading white space, as the first step of `parseInt` does. */
  function TrimStart(s: string): (r: string)
    ensures |r| <= |s| && r == s[|s| - |r|..]
    ensures |r| > 0 ==> !IsWhitespace(r[0])
    ensures forall i | 0 <= i < |s| - |r| :: IsWhitespace(s[i])
  {
    if |s| > 0 && IsWhitespace(s[0]) then TrimStart(s[1..]) else s
  }

  /** The text after one optional leading sign. */
  function Unsigned(t: string): (u: string)
    ensures |u| <= |t|
  {
    if |t| > 0 && (t[0] == '-' || t[0] == '+') then t[1..] else t
  }

  /** `parseInt` with no radix reads base 16 after a `0x` or `0X` prefix, base 10 otherwise. */
  predicate HasHexPrefix(u: string) {
    |u| >= 2 && u[0] == '0' && (u[1] == 'x' || u[1] == 'X')
  }

  /** `parseInt(s)` with no radix argument, following the parseInt algorithm of ECMA-262
      (section 19.2.5): trim, read one optional sign, switch to radix 16 after a `0x`/`0X`
      prefix, then read the longest run of digits; no digits at all is NaN (`None`). */
  function ParseInt(s: string): (r: Option<int>)
    ensures |TrimStart(s)| == 0 ==> r.None?
    ensures var t := TrimStart(s);
            |t| > 0 && t[0] != '+' && t[0] != '-' && !IsDigit(t[0], 10) ==> r.None?
  {
    ParseTrimmed(TrimStart(s))
  }

  /** `parseInt` after the leading white space is gone. */
  function ParseTrimmed(t: string): (r: Option<int>)
    ensures |t| == 0 ==> r.None?
    ensures |t| > 0 && t[0] != '+' && t[0] != '-' && !IsDigit(t[0], 10) ==> r.None?
  {
    var u := Unsigned(t);
    var radix := if HasHexPrefix(u) then 16 else 10;
    var v := if HasHexPrefix(u) then u[2..] else u;
    var n := DigitRun(v, radix);
    if n == 0 then None
    else
      var m: int := ValueOf(v[..n], radix);
      Some(if |t| > 0 && t[0] == '-' then -m else m)
  }

  function DigitChar(d: nat): (c: char)
    requires d < 10
    ensures IsDigit(c, 10) && DigitValue(c) == Some(d)
  {
    ('0' as int + d) as char
  }

  /** The decimal text JavaScript produces for a non-negative integer (below 10^21 the
      runtime prints every digit and no exponent). */
  function ToDecimal(n: nat): (s: string)
    ensures |s| > 0 && AllDigits(s, 10)
    ensures s[0] == '0' ==> n == 0
  {
    if n < 10 then [DigitChar(n)] else ToDecimal(n / 10) + [DigitChar(n % 10)]
  }

  /** Reading back the decimal text of `n` gives `n`. */
  lemma {:induction false} ToDecimalValue(n: nat)
    ensures ValueOf(ToDecimal(n), 10) == n
  {
    var s := ToDecimal(n);
    if n >= 10 {
      ToDecimalValue(n / 10);
      assert s[..|s| - 1] == ToDecimal(n / 10);
    }
  }

  /** The value of a digit string depends only on its own digits, so a longer run read
      over the same prefix agrees with it. */
  lemma {:induction false} DigitRunOfDigitsThenStop(digits: string, rest: string, radix: nat)
    requires AllDigits(digits, radix)
    requires |rest| == 0 || !IsDigit(rest[0], radix)
    ensures DigitRun(digits + rest, radix) == |digits|
    ensures (digits + rest)[..|digits|] == digits
  {
    var s := digits + rest;
    if |digits| > 0 {
      assert s[0] == digits[0];
      assert s[1..] == digits[1..] + rest;
      assert AllDigits(digits[1..], radix) by {
        forall i | 0 <= i < |digits| - 1 ensures IsDigit(digits[1..][i], radix) {
          assert digits[1..][i] == digits[i + 1];
        }
      }
      DigitRunOfDigitsThenStop(digits[1..], rest, radix);
      assert DigitRun(s, radix) == 1 + DigitRun(s[1..], radix);
    } else {
      assert s == rest;
    }
  }

  /** `parseInt` reads back the decimal text of any `n` and ignores whatever follows
      the digits: "12abc" is 12, as a route parameter in server.js sees it. The one
      exception is "0" followed by `x`, which `parseInt` reads as a hexadecimal prefix. */
  lemma {:induction false} ParseIntOfDecimal(n: nat, rest: string)
    requires |rest| == 0 || !IsDigit(rest[0], 10)
    requires n > 0 || |rest| == 0 || (rest[0] != 'x' && rest[0] != 'X')
    ensures ParseInt(ToDecimal(n) + rest) == Some(n)
  {
    var d := ToDecimal(n);
    var s := d + rest;
    DigitIsNotWhitespace(d[0]);
    assert s[0] == d[0];
    assert TrimStart(s) == s;
    ParseDigitsThenStop(d, rest, n);
  }

  lemma {:induction false} DigitIsNotWhitespace(c: char)
    requires IsDigit(c, 10)
    ensures !IsWhitespace(c)
  {
    assert '0' <= c <= '9';
  }

  lemma {:induction false} ParseDigitsThenStop(d: string, rest: string, n: nat)
    requires d == ToDecimal(n)
    requires |rest| == 0 || !IsDigit(rest[0], 10)
    requires n > 0 || |rest| == 0 || (rest[0] != 'x' && rest[0] != 'X')
    ensures ParseTrimmed(d + rest) == Some(n)
  {
    var s := d + rest;
    assert s[0] == d[0];
    assert Unsigned(s) == s;
    assert !HasHexPrefix(s) by {
      if n == 0 {
        assert d == "0";
        if |rest| > 0 { assert s[1] == rest[0]; }
      }
    }
    DigitRunOfDigitsThenStop(d, rest, 10);
    ToDecimalValue(n);
  }

  /** A leading minus sign negates: "-5" is -5. */
  lemma {:induction false} ParseIntOfNegative(n: nat)
    requires n > 0
    ensures ParseInt("-" + ToDecimal(n)) == Some(-(n as int))
  {
    var s := "-" + ToDecimal(n);
    assert s[0] == '-';
    assert TrimStart(s) == s;
    NegativeTrimmed(ToDecimal(n), n);
  }

  lemma {:induction false} NegativeTrimmed(d: string, n: nat)
    requires d == ToDecimal(n) && n > 0
    ensures ParseTrimmed("-" + d) == Some(-(n as int))
  {
    var s := "-" + d;
    assert s[0] == '-' && s[1..] == d;
    assert Unsigned(s) == d;
    assert !HasHexPrefix(d);
    DigitRunOfDigitsThenStop(d, "", 10);
    assert d + "" == d;
    assert DigitRun(d, 10) == |d| && d[..|d|] == d;
    ToDecimalValue(n);
  }

  /** Leading white space never changes the result. */
  lemma {:induction false} ParseIntSkipsWhitespace(c: char, s: string)
    requires IsWhitespace(c)
    ensures ParseInt([c] + s) == ParseInt(s)
  {
    assert ([c] + s)[1..] == s;
    assert TrimStart([c] + s) == TrimStart(s);
  }

  /** The route parameters the test suites use: "invalid" is NaN and "999999" is a number. */
  lemma ParseIntRouteExamples()
    ensures ParseInt("invalid") == None
    ensures ParseInt("") == None
    ensures ParseInt("999999") == Some(999999)
  {
    var bad := "invalid";
    assert bad[0] == 'i' && !IsWhitespace(bad[0]);
    assert TrimStart(bad) == bad;
    assert !IsDigit(bad[0], 10);
    DecimalOfNines();
    ParseIntOfDecimal(999999, "");
    assert ToDecimal(999999) + "" == "999999";
  }

  lemma DecimalOfNines()
    ensures ToDecimal(999999) == "999999"
  {
    assert ToDecimal(99) == "99";
    assert ToDecimal(999) == "999";
    assert ToDecimal(9999) == "9999";
    assert ToDecimal(99999) == "99999";
  }
}

=== FILE: js_text.dfy ===
/** The pieces of JavaScript string semantics the handlers and utilities rely on. */
module JsText {
  import opened Options

  /** The characters matched by `\s` in a JavaScript regular expression, which is also the
      set `parseInt` trims: WhiteSpace and LineTerminator of ECMA-262 (section 12.2 and 12.3),
      with the Unicode space separators (category Zs) spelled out. */
  predicate IsWhitespace(c: char) {
    || c == '\t' || c == '\n' || c == '\U{000B}' || c == '\U{000C}' || c == '\r'
    || c == ' ' || c == '\U{00A0}' || c == '\U{1680}'
    || ('\U{2000}' <= c <= '\U{200A}')
    || c == '\U{2028}' || c == '\U{2029}' || c == '\U{202F}' || c == '\U{205F}'
    || c == '\U{3000}' || c == '\U{FEFF}'
  }

  /** A string-valued request field is falsy in JavaScript when it is absent, null or
      the empty string; `if (!name || !email)` rejects exactly these. */
  predicate Missing(field: Option<string>) {
    field.None? || field.value == ""
  }

  /** `s` occurs in `t` starting at index `i`. */
  predicate OccursAt(t: string, s: string, i: int) {
    0 <= i <= |t| - |s| && t[i..i + |s|] == s
  }

  /** `s` occurs somewhere in `t`, as `String.prototype.includes` tests. */
  predicate Contains(t: string, s: string) {
    exists i | 0 <= i <= |t| - |s| :: OccursAt(t, s, i)
  }
}

=== FILE: options.dfy ===
/** Optional values: a JSON body field that may be absent or null, a nullable column,
    and `NaN` out of `parseInt` are all `None`. */
module Options {

  datatype Option<+T> = None | Some(value: T)
}

=== FILE: rating_lifecycle.dfy ===
/** Properties of the rating endpoints across requests: how a submit moves the tallies
    that `GET /api/ratings` reports, and the per-voter state machine
    (nothing → up/down, up ↔ down, a repeat is refused). */
module RatingLifecycle {
  import opened Options
  import opened Store
  import opened Http
  import opened Ratings

  function Indicator(v: Vote, title: string, artist: string, t: RatingType): nat {
    if CountsAs(v, title, artist, t) then 1 else 0
  }

  /** Replacing one row changes a count by what the old row took away and the new one adds. */
  lemma {:induction false} CountAfterChange(s: seq<Vote>, k: nat, v: Vote, title: string, artist: string, t: RatingType)
    requires k < |s|
    ensures CountVotes(s[k := v], title, artist, t) + Indicator(s[k], title, artist, t)
            == CountVotes(s, title, artist, t) + Indicator(v, title, artist, t)
  {
    var n := |s|;
    if k == n - 1 {
      assert s[k := v][..n - 1] == s[..n - 1];
    } else {
      assert s[k := v][..n - 1] == s[..n - 1][k := v];
      CountAfterChange(s[..n - 1], k, v, title, artist, t);
    }
  }

  lemma {:induction false} CountAfterAppend(s: seq<Vote>, v: Vote, title: string, artist: string, t: RatingType)
    ensures CountVotes(s + [v], title, artist, t) == CountVotes(s, title, artist, t) + Indicator(v, title, artist, t)
  {
    assert (s + [v])[..|s|] == s;
  }

  /** With one row per voter and song, re-voting rewrites exactly that one row. */
  lemma {:induction false} RevoteIsOneChange(s: seq<Vote>, title: string, artist: string, ip: string, want: RatingType, at: nat)
      returns (k: nat)
    requires OneVotePerVoter(s) && VoteOf(s, title, artist, ip).Some?
    ensures k < |s| && SameVoter(s[k], title, artist, ip) && s[k].rating == VoteOf(s, title, artist, ip).value
    ensures Revote(s, title, artist, ip, want, at) == s[k := s[k].(rating := want, at := at)]
  {
    var i :| 0 <= i < |s| && SameVoter(s[i], title, artist, ip) && s[i].rating == VoteOf(s, title, artist, ip).value;
    k := i;
    forall j | 0 <= j < |s| && j != k
      ensures !SameVoter(s[j], title, artist, ip)
    {
      if j < k {
        assert !SameVoter(s[k], s[j].title, s[j].artist, s[j].ip);
      } else {
        assert !SameVoter(s[j], s[k].title, s[k].artist, s[k].ip);
      }
    }
  }

  /** A first vote adds one to its own count; a changed vote moves one from the old count
      to the new; the counts of every other song stay as they were. */
  lemma {:induction false} SubmitMovesOneVote(db: Db, body: RatingBody, env: Env, title2: string, artist2: string, x: RatingType)
    requires Valid(db)
    requires SubmitRating(db, body, env).resp.status == Success
    ensures var o := SubmitRating(db, body, env);
            var title, artist := body.title.value, body.artist.value;
            var want := ParseRating(body.rating.value).value;
            var prior := VoteOf(db.votes, title, artist, env.ip);
            var thisSong := title2 == title && artist2 == artist;
            CountVotes(o.db.votes, title2, artist2, x)
            == CountVotes(db.votes, title2, artist2, x)
               + (if thisSong && x == want then 1 else 0)
               - (if thisSong && prior == Some(x) then 1 else 0)
  {
    var title, artist, ip := body.title.value, body.artist.value, env.ip;
    var want := ParseRating(body.rating.value).value;
    if VoteOf(db.votes, title, artist, ip).None? {
      CountAfterAppend(db.votes, Vote(title, artist, want, ip, db.clock), title2, artist2, x);
    } else {
      assert SubmitRating(db, body, env).db.votes == Revote(db.votes, title, artist, ip, want, db.clock);
      ChangeMovesOneVote(db.votes, title, artist, ip, want, db.clock, title2, artist2, x);
    }
  }

  /** Re-voting takes one vote from the voter's old count and adds one to the new. */
  lemma {:induction false} ChangeMovesOneVote(s: seq<Vote>, title: string, artist: string, ip: string, want: RatingType, at: nat,
                           title2: string, artist2: string, x: RatingType)
    requires OneVotePerVoter(s) && VoteOf(s, title, artist, ip).Some?
    ensures var thisSong := title2 == title && artist2 == artist;
            CountVotes(Revote(s, title, artist, ip, want, at), title2, artist2, x)
            == CountVotes(s, title2, artist2, x)
               + (if thisSong && x == want then 1 else 0)
               - (if thisSong && VoteOf(s, title, artist, ip) == Some(x) then 1 else 0)
  {
    var k := RevoteIsOneChange(s, title, artist, ip, want, at);
    CountAfterChange(s, k, s[k].(rating := want, at := at), title2, artist2, x);
  }

  /** A submit leaves every other voter's rating, of this song or any other, unchanged. */
  lemma {:induction false} SubmitKeepsOtherVoters(db: Db, body: RatingBody, env: Env, title2: string, artist2: string, ip2: string)
    requires Valid(db)
    requires WellFormed(body)
    requires (title2, artist2, ip2) != (body.title.value, body.artist.value, env.ip)
    ensures VoteOf(SubmitRating(db, body, env).db.votes, title2, artist2, ip2) == VoteOf(db.votes, title2, artist2, ip2)
  {
    var o := SubmitRating(db, body, env);
    var title, artist, ip := body.title.value, body.artist.value, env.ip;
    if o.db.votes != db.votes {
      var want := ParseRating(body.rating.value).value;
      if VoteOf(db.votes, title, artist, ip).None? {
        var v := Vote(title, artist, want, ip, db.clock);
        assert (db.votes + [v])[..|db.votes|] == db.votes;
      } else {
        VoteOfAgrees(db.votes, o.db.votes, title2, artist2, ip2);
      }
    }
  }

  /** The same vote twice: the second is refused and changes nothing. */
  lemma {:induction false} RepeatVoteRefused(db: Db, body: RatingBody, env: Env)
    requires Valid(db)
    requires SubmitRating(db, body, env).resp.status == Success
    ensures var o := SubmitRating(db, body, env);
            SubmitRating(o.db, body, env) == Outcome(Fail(400, AlreadyRatedMessage), o.db)
  {
  }

  function Opposite(t: RatingType): RatingType {
    match t
    case Up => Down
    case Down => Up
  }

  function Spelling(t: RatingType): (s: string)
    ensures ParseRating(s) == Some(t)
  {
    match t
    case Up => "up"
    case Down => "down"
  }

  /** After a vote, the opposite vote from the same address is an update, and the vote
      after that (back again) is an update too. */
  lemma {:induction false} AlternatingVotesUpdate(db: Db, body: RatingBody, env: Env)
    requires Valid(db)
    requires SubmitRating(db, body, env).resp.status == Success
    ensures var o := SubmitRating(db, body, env);
            var want := ParseRating(body.rating.value).value;
            var flip := body.(rating := Some(Spelling(Opposite(want))));
            var o2 := SubmitRating(o.db, flip, env);
            && o2.resp == Response(200, Success, Some(UpdatedMessage), NoPayload)
            && SubmitRating(o2.db, body, env).resp == Response(200, Success, Some(UpdatedMessage), NoPayload)
  {
  }

  /** A song nobody has rated has zero votes of either kind and no rating from anyone. */
  lemma {:induction false} UnratedSongIsZero(votes: seq<Vote>, title: string, artist: string, ip: string)
    requires forall i | 0 <= i < |votes| :: !(votes[i].title == title && votes[i].artist == artist)
    ensures CountVotes(votes, title, artist, Up) == 0
    ensures CountVotes(votes, title, artist, Down) == 0
    ensures VoteOf(votes, title, artist, ip) == None
  {
    if |votes| > 0 {
      UnratedSongIsZero(votes[..|votes| - 1], title, artist, ip);
    }
  }
}

=== FILE: ratings.dfy ===
/** The song-rating endpoints of server.js: `GET /api/ratings/:title/:artist` and
    `POST /api/ratings`. Per (song, voter) the state is no row, `up` or `down`; a submit
    creates, changes, or refuses a repeat. Requests are handled one after another. */
module Ratings {
  import opened Options
  import opened JsText
  import opened Store
  import opened Http

  /** `req.body` of `POST /api/ratings`. */
  datatype RatingBody = RatingBody(title: Option<string>, artist: Option<string>, rating: Option<string>)

  const RequiredMessage := "Title, artist, and rating are required"
  const InvalidRatingMessage := "Rating must be either \"up\" or \"down\""
  const SubmittedMessage := "Rating submitted successfully"
  const UpdatedMessage := "Rating updated successfully"
  const AlreadyRatedMessage := "You have already rated this song"
  const SubmitFailedMessage := "Failed to submit rating"
  const FetchFailedMessage := "Failed to fetch ratings"

  /** `rating !== 'up' && rating !== 'down'` rejects everything but these two strings. */
  function ParseRating(s: string): (r: Option<RatingType>)
    ensures r == Some(Up) <==> s == "up"
    ensures r == Some(Down) <==> s == "down"
  {
    if s == "up" then Some(Up) else if s == "down" then Some(Down) else None
  }

  /** The rating of the first row of `votes` for this voter and song, if any: `rows[0]`
      of the lookup query, taken in table order. */
  function VoteOf(votes: seq<Vote>, title: string, artist: string, ip: string): (r: Option<RatingType>)
    ensures r.None? <==> forall i | 0 <= i < |votes| :: !SameVoter(votes[i], title, artist, ip)
    ensures r.Some? ==>
              exists i | 0 <= i < |votes| ::
                && SameVoter(votes[i], title, artist, ip) && votes[i].rating == r.value
                && forall j | 0 <= j < i :: !SameVoter(votes[j], title, artist, ip)
  {
    if |votes| == 0 then None
    else
      var earlier := VoteOf(votes[..|votes| - 1], title, artist, ip);
      var last := votes[|votes| - 1];
      if earlier.Some? then earlier
      else if SameVoter(last, title, artist, ip) then Some(last.rating)
      else None
  }

  predicate CountsAs(v: Vote, title: string, artist: string, t: RatingType) {
    v.title == title && v.artist == artist && v.rating == t
  }

  /** The number of rows for the song with rating `t`: what `COUNT(*) ... GROUP BY
      rating_type` reports for that group. */
  function CountVotes(votes: seq<Vote>, title: string, artist: string, t: RatingType): nat {
    if |votes| == 0 then 0
    else CountVotes(votes[..|votes| - 1], title, artist, t)
         + (if CountsAs(votes[|votes| - 1], title, artist, t) then 1 else 0)
  }

  /** `UPDATE song_ratings SET rating_type = $1, created_at = CURRENT_TIMESTAMP WHERE
      song_title = $2 AND song_artist = $3 AND user_ip = $4`. On a table with one row per
      voter and song where this voter has rated the song, the voter now has rating `t` and
      the table still has one row per voter and song; every other voter's rating of every
      song is what it was. */
  function Revote(votes: seq<Vote>, title: string, artist: string, ip: string,
                  t: RatingType, at: nat): (r: seq<Vote>)
    ensures |r| == |votes|
    ensures forall i | 0 <= i < |votes| ::
              r[i] == if SameVoter(votes[i], title, artist, ip) then votes[i].(rating := t, at := at) else votes[i]
    ensures OneVotePerVoter(votes) && VoteOf(votes, title, artist, ip).Some? ==>
              OneVotePerVoter(r) && VoteOf(r, title, artist, ip) == Some(t)
    ensures forall title2: string, artist2: string, ip2: string
              | !(title2 == title && artist2 == artist && ip2 == ip) ::
              VoteOf(r, title2, artist2, ip2) == VoteOf(votes, title2, artist2, ip2)
  {
    var r := seq(|votes|, i requires 0 <= i < |votes| =>
      if SameVoter(votes[i], title, artist, ip) then votes[i].(rating := t, at := at) else votes[i]);
    assert OneVotePerVoter(votes) && VoteOf(votes, title, artist, ip).Some? ==>
             OneVotePerVoter(r) && VoteOf(r, title, artist, ip) == Some(t) by {
      if OneVotePerVoter(votes) && VoteOf(votes, title, artist, ip).Some? {
        RewriteSetsVote(votes, r, title, artist, ip, t, at);
      }
    }
    RewriteKeepsOthers(votes, r, title, artist, ip, t, at);
    r
  }

  /** The rewrite gives the voter the new rating and keeps one row per voter and song. */
  lemma {:induction false} RewriteSetsVote(votes: seq<Vote>, r: seq<Vote>, title: string, artist: string,
                                           ip: string, t: RatingType, at: nat)
    requires |r| == |votes|
    requires forall i | 0 <= i < |votes| ::
               r[i] == if SameVoter(votes[i], title, artist, ip) then votes[i].(rating := t, at := at) else votes[i]
    requires OneVotePerVoter(votes) && VoteOf(votes, title, artist, ip).Some?
    ensures OneVotePerVoter(r) && VoteOf(r, title, artist, ip) == Some(t)
  {
    assert forall i | 0 <= i < |votes| :: SameVoter(r[i], title, artist, ip) == SameVoter(votes[i], title, artist, ip);
    assert forall i, j | 0 <= i < j < |r| ::
      SameVoter(r[j], r[i].title, r[i].artist, r[i].ip) == SameVoter(votes[j], votes[i].title, votes[i].artist, votes[i].ip);
  }

  /** The rewrite changes no other voter's rating of any song. */
  lemma {:induction false} RewriteKeepsOthers(votes: seq<Vote>, r: seq<Vote>, title: string, artist: string,
                                              ip: string, t: RatingType, at: nat)
    requires |r| == |votes|
    requires forall i | 0 <= i < |votes| ::
               r[i] == if SameVoter(votes[i], title, artist, ip) then votes[i].(rating := t, at := at) else votes[i]
    ensures forall title2: string, artist2: string, ip2: string
              | !(title2 == title && artist2 == artist && ip2 == ip) ::
              VoteOf(r, title2, artist2, ip2) == VoteOf(votes, title2, artist2, ip2)
  {
    forall title2: string, artist2: string, ip2: string | !(title2 == title && artist2 == artist && ip2 == ip)
      ensures VoteOf(r, title2, artist2, ip2) == VoteOf(votes, title2, artist2, ip2)
    {
      VoteOfAgrees(votes, r, title2, artist2, ip2);
    }
  }

  /** Rows that agree on who voted, and on the rating wherever `ip` voted, give `ip`
      the same answer. */
  lemma {:induction false} VoteOfAgrees(s: seq<Vote>, s': seq<Vote>, title: string, artist: string, ip: string)
    requires |s'| == |s|
    requires forall i | 0 <= i < |s| :: SameVoter(s'[i], title, artist, ip) == SameVoter(s[i], title, artist, ip)
    requires forall i | 0 <= i < |s| && SameVoter(s[i], title, artist, ip) :: s'[i].rating == s[i].rating
    ensures VoteOf(s', title, artist, ip) == VoteOf(s, title, artist, ip)
  {
    if |s| > 0 {
      VoteOfAgrees(s[..|s| - 1], s'[..|s| - 1], title, artist, ip);
    }
  }

  /** `GET /api/ratings/:title/:artist`: both counts, zero when the song has no row of
      that type, and the caller's own rating or null. The title and artist arrive already
      percent-decoded. */
  method GetRatings(db: Db, title: string, artist: string, env: Env) returns (resp: Response)
    ensures !env.storeUp ==> resp == Fail(500, FetchFailedMessage)
    ensures env.storeUp ==>
              resp == Response(200, Success, None,
                               Tally(CountVotes(db.votes, title, artist, Up),
                                     CountVotes(db.votes, title, artist, Down),
                                     VoteOf(db.votes, title, artist, env.ip)))
  {
    if !env.storeUp {
      return Fail(500, FetchFailedMessage);
    }
    var up, down := 0, 0;
    var mine: Option<RatingType> := None;
    var i := 0;
    while i < |db.votes|
      invariant 0 <= i <= |db.votes|
      invariant up == CountVotes(db.votes[..i], title, artist, Up)
      invariant down == CountVotes(db.votes[..i], title, artist, Down)
      invariant mine == VoteOf(db.votes[..i], title, artist, env.ip)
    {
      var v := db.votes[i];
      assert db.votes[..i + 1][..i] == db.votes[..i];
      if v.title == title && v.artist == artist {
        if v.rating == Up { up := up + 1; } else { down := down + 1; }
      }
      if mine.None? && SameVoter(v, title, artist, env.ip) {
        mine := Some(v.rating);
      }
      i := i + 1;
    }
    assert db.votes[..i] == db.votes;
    resp := Response(200, Success, None, Tally(up, down, mine));
  }

  predicate WellFormed(body: RatingBody) {
    !Missing(body.title) && !Missing(body.artist) && !Missing(body.rating)
  }

  /** The INSERT of a first vote: one row appended, stamped with the clock. */
  function AddVote(db: Db, title: string, artist: string, ip: string, want: RatingType): (r: Db)
    requires Valid(db) && VoteOf(db.votes, title, artist, ip).None?
    ensures Valid(r)
    ensures r.users == db.users && r.students == db.students && r.audit == db.audit
    ensures r.votes == db.votes + [Vote(title, artist, want, ip, db.clock)]
    ensures VoteOf(r.votes, title, artist, ip) == Some(want)
  {
    var v := Vote(title, artist, want, ip, db.clock);
    var votes := db.votes + [v];
    assert votes[..|votes| - 1] == db.votes;
    AppendKeepsOneVote(db.votes, v);
    VotesKeepValid(db, votes);
    db.(votes := votes, clock := db.clock + 1)
  }

  /** A first vote from a voter keeps one row per voter and song. */
  lemma {:induction false} AppendKeepsOneVote(votes: seq<Vote>, v: Vote)
    requires OneVotePerVoter(votes)
    requires VoteOf(votes, v.title, v.artist, v.ip).None?
    ensures OneVotePerVoter(votes + [v])
  {
    var r := votes + [v];
    forall i, j | 0 <= i < j < |r|
      ensures !SameVoter(r[j], r[i].title, r[i].artist, r[i].ip)
    {
      if j == |votes| {
        assert r[i] == votes[i];
      } else {
        assert r[i] == votes[i] && r[j] == votes[j];
      }
    }
  }

  /** The UPDATE of an existing vote: the voter's row gets the new rating and time, every
      other row is kept in place. */
  function ChangeVote(db: Db, title: string, artist: string, ip: string, want: RatingType): (r: Db)
    requires Valid(db) && VoteOf(db.votes, title, artist, ip).Some?
    ensures Valid(r)
    ensures r.users == db.users && r.students == db.students && r.audit == db.audit
    ensures |r.votes| == |db.votes|
    ensures forall i | 0 <= i < |db.votes| && !SameVoter(db.votes[i], title, artist, ip) :: r.votes[i] == db.votes[i]
    ensures VoteOf(r.votes, title, artist, ip) == Some(want)
  {
    var votes := Revote(db.votes, title, artist, ip, want, db.clock);
    VotesKeepValid(db, votes);
    db.(votes := votes, clock := db.clock + 1)
  }

  /** `POST /api/ratings`: the three required fields, then the rating value, then the
      lookup that decides between insert, update and refusal. */
  function SubmitRating(db: Db, body: RatingBody, env: Env): (o: Outcome)
    requires Valid(db)
    ensures Valid(o.db)
    ensures o.db.users == db.users && o.db.students == db.students && o.db.audit == db.audit
    ensures !WellFormed(body) ==> o == Outcome(Fail(400, RequiredMessage), db)
    ensures WellFormed(body) && ParseRating(body.rating.value).None? ==>
              o == Outcome(Fail(400, InvalidRatingMessage), db)
    ensures WellFormed(body) && ParseRating(body.rating.value).Some? && !env.storeUp ==>
              o == Outcome(Fail(500, SubmitFailedMessage), db)
    ensures WellFormed(body) && ParseRating(body.rating.value).Some? && env.storeUp ==>
              var title, artist, want := body.title.value, body.artist.value, ParseRating(body.rating.value).value;
              var prior := VoteOf(db.votes, title, artist, env.ip);
              && (prior.None? ==>
                    && o.resp == Response(201, Success, Some(SubmittedMessage), NoPayload)
                    && o.db.votes == db.votes + [Vote(title, artist, want, env.ip, db.clock)])
              && (prior.Some? && prior.value != want ==>
                    && o.resp == Response(200, Success, Some(UpdatedMessage), NoPayload)
                    && |o.db.votes| == |db.votes|
                    && forall i | 0 <= i < |db.votes| && !SameVoter(db.votes[i], title, artist, env.ip) ::
                         o.db.votes[i] == db.votes[i])
              && (prior == Some(want) ==> o == Outcome(Fail(400, AlreadyRatedMessage), db))
              && (o.resp.status == Success ==> VoteOf(o.db.votes, title, artist, env.ip) == Some(want))
  {
    if !WellFormed(body) then Outcome(Fail(400, RequiredMessage), db)
    else match ParseRating(body.rating.value)
      case None => Outcome(Fail(400, InvalidRatingMessage), db)
      case Some(want) =>
        if !env.storeUp then Outcome(Fail(500, SubmitFailedMessage), db)
        else
          var title, artist, ip := body.title.value, body.artist.value, env.ip;
          match VoteOf(db.votes, title, artist, ip)
          case None =>
            Outcome(Response(201, Success, Some(SubmittedMessage), NoPayload), AddVote(db, title, artist, ip, want))
          case Some(prior) =>
            if prior != want then
              Outcome(Response(200, Success, Some(UpdatedMessage), NoPayload), ChangeVote(db, title, artist, ip, want))
            else Outcome(Fail(400, AlreadyRatedMessage), db)
  }
}

=== FILE: relative_time.dfy ===
/** The relative-time part of `formatTimestamp` in the browser utilities: the age of a
    timestamp, in milliseconds, put into one bucket and written as "5 mins ago" and the
    like, appended to the locale-formatted date. The clock and the locale formatting are
    inputs. */
module RelativeTime {
  import opened Options
  import opened JsText
  import opened JsNumber

  const MinuteMs: nat := 60000
  const HourMs: nat := 3600000
  const DayMs: nat := 86400000
  /** `diffDays < 7`: older timestamps get no relative text. */
  const WeekMs: nat := 7 * DayMs

  /** The branch taken, with the whole number of units it shows. */
  datatype Ago = JustNow | Minutes(n: nat) | Hours(n: nat) | Days(n: nat) | NoRelative

  /** The bucket for a difference `now - date`. `None` is NaN, what an unparseable date
      gives; every comparison with NaN is false, so no branch is taken. `Math.floor` of a
      division by a positive constant is Dafny's `/`, negative differences included. */
  function Bucket(diffMs: Option<int>): (a: Ago)
    ensures diffMs.None? ==> a == NoRelative
    ensures diffMs.Some? ==>
              var d := diffMs.value;
              && (a == JustNow <==> d < MinuteMs)
              && (a.Minutes? <==> MinuteMs <= d < HourMs)
              && (a.Hours? <==> HourMs <= d < DayMs)
              && (a.Days? <==> DayMs <= d < WeekMs)
              && (a == NoRelative <==> WeekMs <= d)
    ensures a.Minutes? ==> 1 <= a.n < 60 && a.n * MinuteMs <= diffMs.value < (a.n + 1) * MinuteMs
    ensures a.Hours? ==> 1 <= a.n < 24 && a.n * HourMs <= diffMs.value < (a.n + 1) * HourMs
    ensures a.Days? ==> 1 <= a.n < 7 && a.n * DayMs <= diffMs.value < (a.n + 1) * DayMs
  {
    match diffMs
    case None => NoRelative
    case Some(d) =>
      var mins, hours, days := d / MinuteMs, d / HourMs, d / DayMs;
      if mins < 1 then JustNow
      else if mins < 60 then Minutes(mins)
      else if hours < 24 then Hours(hours)
      else if days < 7 then Days(days)
      else NoRelative
  }

  /** `${n} unit${n > 1 ? 's' : ''} ago` */
  function Count(n: nat, unit: string): string {
    ToDecimal(n) + " " + unit + (if n > 1 then "s" else "") + " ago"
  }

  /** The count at the head of the text reads back as the number of units. */
  lemma {:induction false} CountReadsBack(n: nat, unit: string)
    requires n >= 1
    ensures ParseInt(Count(n, unit)) == Some(n as int)
  {
    var rest := " " + unit + (if n > 1 then "s" else "") + " ago";
    assert Count(n, unit) == ToDecimal(n) + rest;
    ParseIntOfDecimal(n, rest);
  }

  /** The unit word takes a plural "s" exactly when the count is above one, for a unit
      word that does not itself end in "s". */
  lemma {:induction false} CountPlural(n: nat, unit: string)
    requires |unit| > 0 && unit[|unit| - 1] != 's'
    ensures var t := Count(n, unit);
            && |t| >= 5 && t[|t| - 4..] == " ago"
            && (t[|t| - 5..] == "s ago" <==> n > 1)
  {
    var t := Count(n, unit);
    var head := ToDecimal(n) + " " + unit;
    if n > 1 {
      assert t == head + "s ago";
    } else {
      assert t == head + " ago";
      assert t[|t| - 5] == unit[|unit| - 1];
    }
  }

  /** The unit word follows the count. */
  lemma {:induction false} CountNamesUnit(n: nat, unit: string)
    ensures OccursAt(Count(n, unit), " " + unit, |ToDecimal(n)|)
  {
    var t := Count(n, unit);
    var k := |ToDecimal(n)|;
    var w := " " + unit;
    assert t == ToDecimal(n) + w + ((if n > 1 then "s" else "") + " ago");
    assert t[k..k + |w|] == w;
  }

  /** The `timeAgo` text; empty exactly when no branch was taken. */
  function TimeAgoText(a: Ago): (t: string)
    ensures t == "" <==> a == NoRelative
    ensures a == JustNow ==> t == "Just now"
  {
    match a
    case JustNow => "Just now"
    case Minutes(n) => Count(n, "min")
    case Hours(n) => Count(n, "hour")
    case Days(n) => Count(n, "day")
    case NoRelative => ""
  }

  /** The unit a counted bucket is written in. */
  function Unit(a: Ago): string
    requires a.Minutes? || a.Hours? || a.Days?
  {
    match a
    case Minutes(_) => "min"
    case Hours(_) => "hour"
    case Days(_) => "day"
  }

  /** `t` is written as `n` units: its count reads back as `n`, and it is spelled as
      that many units. */
  predicate ReadsAsCount(t: string, n: nat, unit: string) {
    ParseInt(t) == Some(n as int) && SpelledAsCount(t, n, unit)
  }

  /** `t` opens with the decimal text of `n`, the unit word follows the count, the plural
      "s" is there exactly when `n` is above one, it ends in " ago", and its length leaves
      room for nothing more. */
  predicate SpelledAsCount(t: string, n: nat, unit: string) {
    && OccursAt(t, ToDecimal(n), 0)
    && OccursAt(t, " " + unit, |ToDecimal(n)|)
    && |t| >= 5 && t[|t| - 4..] == " ago"
    && (t[|t| - 5..] == "s ago" <==> n > 1)
    && |t| == |ToDecimal(n)| + 1 + |unit| + (if n > 1 then 5 else 4)
  }

  /** The description leaves nothing open: a text written as `n` units is the count,
      a space, the unit word, the plural "s" when `n` is above one, and " ago". */
  lemma {:induction false} SpelledExactly(t: string, n: nat, unit: string)
    requires SpelledAsCount(t, n, unit)
    ensures t == ToDecimal(n) + " " + unit + (if n > 1 then "s ago" else " ago")
  {
    var k, w := |ToDecimal(n)|, |unit| + 1;
    var z := if n > 1 then "s ago" else " ago";
    assert t[..k] == ToDecimal(n);
    assert t[k..k + w] == " " + unit;
    assert t[k + w..] == z by {
      if n > 1 { assert t[|t| - 5..] == "s ago"; } else { assert t[|t| - 4..] == " ago"; }
    }
    assert t == t[..k] + t[k..k + w] + t[k + w..];
  }

  /** Two texts written as the same count of the same unit are the same text. */
  lemma {:induction false} SpelledUniquely(t: string, t': string, n: nat, unit: string)
    requires SpelledAsCount(t, n, unit) && SpelledAsCount(t', n, unit)
    ensures t == t'
  {
    SpelledExactly(t, n, unit);
    SpelledExactly(t', n, unit);
  }

  lemma {:induction false} CountReads(n: nat, unit: string)
    requires n >= 1 && |unit| > 0 && unit[|unit| - 1] != 's'
    ensures ReadsAsCount(Count(n, unit), n, unit)
  {
    CountReadsBack(n, unit);
    CountSpelled(n, unit);
  }

  /** A count text is spelled as its number of units. */
  lemma {:induction false} CountSpelled(n: nat, unit: string)
    requires |unit| > 0 && unit[|unit| - 1] != 's'
    ensures SpelledAsCount(Count(n, unit), n, unit)
  {
    CountOpensWithDecimal(n, unit);
    CountNamesUnit(n, unit);
    CountPlural(n, unit);
    CountLength(n, unit);
  }

  /** The text opens with the count's digits. */
  lemma {:induction false} CountOpensWithDecimal(n: nat, unit: string)
    ensures OccursAt(Count(n, unit), ToDecimal(n), 0)
  {
    var rest := " " + unit + (if n > 1 then "s" else "") + " ago";
    assert Count(n, unit) == ToDecimal(n) + rest;
    assert Count(n, unit)[..|ToDecimal(n)|] == ToDecimal(n);
  }

  /** The text is exactly as long as its parts. */
  lemma {:induction false} CountLength(n: nat, unit: string)
    ensures |Count(n, unit)| == |ToDecimal(n)| + 1 + |unit| + (if n > 1 then 5 else 4)
  {
  }

  /** A counted bucket's text is written as its number of units. */
  lemma {:induction false} CountedText(a: Ago)
    requires a.Minutes? || a.Hours? || a.Days?
    requires a.n >= 1
    ensures ReadsAsCount(TimeAgoText(a), a.n, Unit(a))
  {
    match a
    case Minutes(n) =>
      assert TimeAgoText(a) == Count(n, "min");
      CountReads(n, "min");
    case Hours(n) =>
      assert TimeAgoText(a) == Count(n, "hour");
      CountReads(n, "hour");
    case Days(n) =>
      assert TimeAgoText(a) == Count(n, "day");
      CountReads(n, "day");
  }

  const LineBreak := "<br>"
  const Open := LineBreak + "<small style=\"color: #3b82f6; font-weight: 600;\">"
  const Close := "</small>"

  /** `formatTimestamp`: the formatted date, followed by the relative text in a small
      line of its own when there is one. */
  function FormatTimestamp(formatted: string, diffMs: Option<int>): (r: string)
    ensures |r| >= |formatted| && r[..|formatted|] == formatted
    ensures r == formatted <==> Bucket(diffMs) == NoRelative
    ensures r != formatted ==> OccursAt(r, Open + TimeAgoText(Bucket(diffMs)) + Close, |formatted|)
    ensures r != formatted ==> |r| == |formatted| + |Open| + |TimeAgoText(Bucket(diffMs))| + |Close|
  {
    var timeAgo := TimeAgoText(Bucket(diffMs));
    if timeAgo == "" then formatted
    else
      var tail := Open + timeAgo + Close;
      var r := formatted + tail;
      assert r[..|formatted|] == formatted;
      assert r[|formatted|..|formatted| + |tail|] == tail;
      r
  }

  /** The display order of the buckets, finest first. */
  function Rank(a: Ago): nat {
    match a
    case JustNow => 0
    case Minutes(n) => n
    case Hours(n) => 60 + n
    case Days(n) => 100 + n
    case NoRelative => 200
  }

  lemma {:induction false} DivMonotone(x: int, y: int, k: nat)
    requires k > 0 && x <= y
    ensures x / k <= y / k
  {
    if x / k > y / k {
      assert (x / k) * k >= (y / k + 1) * k by {
        MulMonotone(y / k + 1, x / k, k);
      }
    }
  }

  lemma {:induction false} MulMonotone(a: int, b: int, k: nat)
    requires a <= b
    ensures a * k <= b * k
  {
  }

  /** An older timestamp never shows a more recent relative text. */
  lemma {:induction false} BucketMonotone(d1: int, d2: int)
    requires d1 <= d2
    ensures Rank(Bucket(Some(d1))) <= Rank(Bucket(Some(d2)))
  {
    DivMonotone(d1, d2, MinuteMs);
    DivMonotone(d1, d2, HourMs);
    DivMonotone(d1, d2, DayMs);
  }

  /** A timestamp in the future counts as "Just now". */
  lemma {:induction false} FutureIsJustNow(d: int)
    requires d < 0
    ensures TimeAgoText(Bucket(Some(d))) == "Just now"
  {
  }

  /** Timestamps a week old or more, and unparseable dates, show only the formatted date. */
  lemma {:induction false} OldTimestampPlain(formatted: string, diffMs: Option<int>)
    requires diffMs.None? || diffMs.value >= WeekMs
    ensures FormatTimestamp(formatted, diffMs) == formatted
  {
  }

  /** The relative texts the utility's test suite looks for. */
  lemma MinutesAgoExample()
    ensures TimeAgoText(Bucket(Some(5 * 60 * 1000))) == "5 mins ago"
  {
    assert Bucket(Some(5 * 60 * 1000)) == Minutes(5);
    assert ToDecimal(5) == "5";
  }

  lemma HoursAgoExample()
    ensures TimeAgoText(Bucket(Some(2 * 60 * 60 * 1000))) == "2 hours ago"
  {
    assert Bucket(Some(2 * 60 * 60 * 1000)) == Hours(2);
    assert ToDecimal(2) == "2";
  }

  lemma DaysAgoExample()
    ensures TimeAgoText(Bucket(Some(3 * 24 * 60 * 60 * 1000))) == "3 days ago"
  {
    assert Bucket(Some(3 * 24 * 60 * 60 * 1000)) == Days(3);
    assert ToDecimal(3) == "3";
  }

  lemma OneMinuteAgoExample()
    ensures TimeAgoText(Bucket(Some(90 * 1000))) == "1 min ago"
  {
    assert Bucket(Some(90 * 1000)) == Minutes(1);
    assert ToDecimal(1) == "1";
  }

  lemma JustNowExample()
    ensures TimeAgoText(Bucket(Some(59 * 1000))) == "Just now"
  {
  }

  /** A recent timestamp's output carries the line break and the text "ago". */
  lemma {:induction false} RecentShowsAgo(formatted: string, d: int)
    requires MinuteMs <= d < WeekMs
    ensures var r := FormatTimestamp(formatted, Some(d));
            Contains(r, "<br>") && Contains(r, " ago")
  {
    var r := FormatTimestamp(formatted, Some(d));
    var t := TimeAgoText(Bucket(Some(d)));
    var n := |formatted|;
    var tail := Open + t + Close;
    assert OccursAt(r, tail, n);
    assert r[n..n + |tail|] == tail;
    TailShowsAgo(t);
    OccursWithin(r, tail, n, LineBreak, 0);
    OccursWithin(r, tail, n, " ago", |Open| + |t| - 4);
  }

  /** The styled line opens with the line break and, for a counted bucket, has " ago" just
      before its closing tag. */
  lemma {:induction false} TailShowsAgo(t: string)
    requires |t| >= 4 && t[|t| - 4..] == " ago"
    ensures OccursAt(Open + t + Close, LineBreak, 0)
    ensures OccursAt(Open + t + Close, " ago", |Open| + |t| - 4)
  {
    var tail := Open + t + Close;
    assert tail[..4] == Open[..4] == LineBreak;
    assert tail[|Open| + |t| - 4..|Open| + |t|] == t[|t| - 4..];
  }

  /** An occurrence inside an occurrence. */
  lemma {:induction false} OccursWithin(r: string, tail: string, n: int, s: string, k: int)
    requires OccursAt(r, tail, n) && OccursAt(tail, s, k)
    ensures Contains(r, s)
  {
    forall i | 0 <= i < |s| ensures r[n + k + i] == s[i] {
      assert r[n..n + |tail|][k + i] == r[n + k + i];
      assert tail[k..k + |s|][i] == tail[k + i];
    }
    assert r[n + k..n + k + |s|] == s;
    assert OccursAt(r, s, n + k);
  }
}

=== FILE: store.dfy ===
/** The PostgreSQL database behind server.js, replaced by an immutable in-memory value.
    Table `users` and `students` become maps from id to row, `song_ratings` a sequence of
    rows in table order, `audit_log` an append-only sequence. Timestamps (`NOW()`,
    `CURRENT_TIMESTAMP`) come from one abstract counter that every write advances. */
module Store {
  import opened Options

  /** The `entity_type` of an audit entry, and which table a handler works on. */
  datatype Kind = User | Student

  /** The mutable columns of a row. `major` is nullable. */
  datatype Fields =
    | UserFields(name: string, email: string)
    | StudentFields(name: string, email: string, grade: string, major: Option<string>)

  predicate FieldsOfKind(kind: Kind, f: Fields) {
    match kind
    case User => f.UserFields?
    case Student => f.StudentFields?
  }

  /** A row of `users` or `students`; `createdAt` is set on insert and never changed. */
  datatype Row = Row(fields: Fields, createdAt: nat)

  type Table = map<int, Row>

  datatype RatingType = Up | Down

  /** A row of `song_ratings`: the voter is identified by network address alone. */
  datatype Vote = Vote(title: string, artist: string, rating: RatingType, ip: string, at: nat)

  datatype Action = CREATE | UPDATE | DELETE

  /** The JSON stored in `audit_log.changes`: a flat snapshot for CREATE and DELETE,
      a before/after pair for UPDATE. */
  datatype Changes = Snapshot(fields: Fields) | Diff(before: Fields, after: Fields)

  datatype AuditEntry = AuditEntry(
    id: nat, action: Action, kind: Kind, entityId: int,
    userName: string, userEmail: string, changes: Changes, ip: string, at: nat)

  /** The whole database. `nextUserId`/`nextStudentId` are the id sequences of the two
      entity tables, `clock` the source of every timestamp. */
  datatype Db = Db(
    users: Table, students: Table, votes: seq<Vote>, audit: seq<AuditEntry>,
    nextUserId: int, nextStudentId: int, nextAuditId: nat, clock: nat)

  function TableOf(db: Db, kind: Kind): Table {
    match kind
    case User => db.users
    case Student => db.students
  }

  function NextIdOf(db: Db, kind: Kind): int {
    match kind
    case User => db.nextUserId
    case Student => db.nextStudentId
  }

  /** `db` with the table of `kind` replaced by `t`; nothing else differs. */
  function WithTable(db: Db, kind: Kind, t: Table): (r: Db)
    ensures TableOf(r, kind) == t
    ensures kind == User ==> r == db.(users := t)
    ensures kind == Student ==> r == db.(students := t)
  {
    match kind
    case User => db.(users := t)
    case Student => db.(students := t)
  }

  /** `db` after one INSERT into the table of `kind`: the sequence and the clock advance. */
  function AfterInsert(db: Db, kind: Kind, t: Table): (r: Db)
    ensures TableOf(r, kind) == t
    ensures NextIdOf(r, kind) == NextIdOf(db, kind) + 1
    ensures r.clock == db.clock + 1
  {
    match kind
    case User => db.(users := t, nextUserId := db.nextUserId + 1, clock := db.clock + 1)
    case Student => db.(students := t, nextStudentId := db.nextStudentId + 1, clock := db.clock + 1)
  }

  /** `email` is already in use by a row of `t` — the UNIQUE constraint on the email
      column, which the schema (not part of this model) declares. */
  predicate EmailTaken(t: Table, email: string) {
    exists id | id in t :: t[id].fields.email == email
  }

  /** `email` belongs to a row of `t` other than `id`: an UPDATE of row `id` to it would
      violate the unique constraint. */
  predicate EmailTakenByOther(t: Table, id: int, email: string) {
    exists k | k in t :: k != id && t[k].fields.email == email
  }

  /** The UNIQUE email constraint holds in `t`. */
  predicate UniqueEmails(t: Table) {
    forall a, b | a in t && b in t && t[a].fields.email == t[b].fields.email :: a == b
  }

  predicate TableValid(t: Table, kind: Kind, nextId: int, clock: nat) {
    && nextId >= 1
    && (forall id | id in t :: 1 <= id < nextId && t[id].createdAt < clock && FieldsOfKind(kind, t[id].fields))
    && UniqueEmails(t)
  }

  predicate SameVoter(v: Vote, title: string, artist: string, ip: string) {
    v.title == title && v.artist == artist && v.ip == ip
  }

  /** At most one `song_ratings` row per (title, artist, ip). */
  predicate OneVotePerVoter(votes: seq<Vote>) {
    forall i, j | 0 <= i < j < |votes| :: !SameVoter(votes[j], votes[i].title, votes[i].artist, votes[i].ip)
  }

  /** Audit entries are stamped in append order. */
  predicate AuditChronological(audit: seq<AuditEntry>, clock: nat) {
    && (forall i | 0 <= i < |audit| :: audit[i].at < clock)
    && (forall i, j | 0 <= i < j < |audit| :: audit[i].at < audit[j].at)
  }

  /** What the schema and the handlers together keep true of the database: serial ids
      below the sequence, unique emails, one vote per voter and song, and timestamps
      taken from the clock. */
  predicate Valid(db: Db) {
    && TableValid(db.users, User, db.nextUserId, db.clock)
    && TableValid(db.students, Student, db.nextStudentId, db.clock)
    && OneVotePerVoter(db.votes)
    && (forall i | 0 <= i < |db.votes| :: db.votes[i].at < db.clock)
    && AuditChronological(db.audit, db.clock)
  }

  /** The freshly created database: every table empty, sequences at 1. */
  function Empty(): (db: Db)
    ensures Valid(db)
  {
    Db(map[], map[], [], [], 1, 1, 1, 0)
  }

  /** Inserting a row with the next id, the current time and an unused email keeps the
      database valid. */
  lemma {:induction false} InsertKeepsValid(db: Db, kind: Kind, id: int, row: Row)
    requires Valid(db)
    requires id == NextIdOf(db, kind) && row.createdAt == db.clock && FieldsOfKind(kind, row.fields)
    requires !EmailTaken(TableOf(db, kind), row.fields.email)
    ensures Valid(AfterInsert(db, kind, TableOf(db, kind)[id := row]))
  {
    var t := TableOf(db, kind)[id := row];
    assert UniqueEmails(t);
    var r := AfterInsert(db, kind, t);
    match kind
    case User => assert TableValid(r.students, Student, r.nextStudentId, r.clock);
    case Student => assert TableValid(r.users, User, r.nextUserId, r.clock);
  }

  /** Rewriting the mutable columns of an existing row, keeping its timestamp and taking
      an email no other row has, keeps the database valid. */
  lemma {:induction false} ReplaceKeepsValid(db: Db, kind: Kind, id: int, row: Row)
    requires Valid(db)
    requires id in TableOf(db, kind) && row.createdAt == TableOf(db, kind)[id].createdAt
    requires FieldsOfKind(kind, row.fields)
    requires !EmailTakenByOther(TableOf(db, kind), id, row.fields.email)
    ensures Valid(WithTable(db, kind, TableOf(db, kind)[id := row]))
  {
    var t := TableOf(db, kind)[id := row];
    assert UniqueEmails(t);
  }

  lemma {:induction false} RemoveKeepsValid(db: Db, kind: Kind, id: int)
    requires Valid(db)
    ensures Valid(WithTable(db, kind, TableOf(db, kind) - {id}))
  {
  }

  /** Replacing the ratings table by one that keeps one row per voter and song, with
      every row stamped no later than now, and advancing the clock keeps the database
      valid. */
  lemma {:induction false} VotesKeepValid(db: Db, votes: seq<Vote>)
    requires Valid(db)
    requires OneVotePerVoter(votes)
    requires forall i | 0 <= i < |votes| :: votes[i].at <= db.clock
    ensures Valid(db.(votes := votes, clock := db.clock + 1))
  {
    TableValidLater(db.users, User, db.nextUserId, db.clock);
    TableValidLater(db.students, Student, db.nextStudentId, db.clock);
    assert forall i | 0 <= i < |db.audit| :: db.audit[i].at < db.clock + 1;
  }

  lemma {:induction false} TableValidLater(t: Table, kind: Kind, nextId: int, clock: nat)
    requires TableValid(t, kind, nextId, clock)
    ensures TableValid(t, kind, nextId, clock + 1)
  {
    forall id | id in t ensures t[id].createdAt < clock + 1 {
    }
  }
}
